=== FILE: README.md ===
# Story map, modelled in Dafny

This project models the two halves of the story-map block.

**The client-side controller** (`src/story-map.js`) is a state machine over three mutually exclusive frames: the world map, the list of regions and the region detail. Click and keydown events and a responsive breakpoint drive it.

- The DOM is abstracted into one immutable record, `StoryMap.View`. It holds:
  - the `is-active` flags of the map trigger, list trigger, world, list and regions frames;
  - `aria-expanded` on the two view triggers;
  - every marker, with its `is-active`, `aria-expanded`, `tabindex` and `aria-hidden`, and its `--listing` / `--mobile` modifiers;
  - the ids of the regions, content blocks and other addressable elements, and which of them are active;
  - the responsive state.
- Each helper of the controller is a pure transition on `View`: `activateFrame`, `resetMarkersContent`, `resetRegions` and `activateContent` (both directions).
- Each event handler is the composition of those helpers in the order the source calls them. It is followed by the height recomputation, the focus target and the live-region announcement text.
- `adjustHeight` is a pure integer function. Its inputs are the frame, the responsive state, the measured `offsetHeight` values and the control's `aria-controls` list. Its output is the block size it assigns.
- A lookup `#id` that matches nothing stops a handler with a `Fault`. So does `null.split` on a missing `aria-controls`.

**The block plugin** (`src/tuftsBlockStoryMap.php`) shapes taxonomy terms into the nested region tree the template receives:

- only top-level terms produce entries, in input order;
- each entry holds one record per loaded child;
- top-level positions are percentages of a 1304×850 reference image;
- child positions are percentages of the parent's aspect-ratio fields;
- `map_description`, `map_heading` and `map_regions` appear only when their source is non-empty.

The modules follow the program:

- `Base`: `Option` and `Result`.
- `Strings`: JavaScript `split(', ')` with its inverse, and PHP `str_replace('--', '-', …)`.
- `StoryMap`: the abstract DOM and the helpers.
- `Height`: `adjustHeight`.
- `Controller`: the handlers, `init`, event runs and the frame invariant.
- `RegionBlock`: `build()` and `getPercent()`.

The main invariant is `StoryMap.FrameInvariant`:

- exactly one frame is shown;
- the map trigger is active and has `aria-expanded="true"` exactly when the world frame is shown;
- the list trigger is active and expanded exactly when the list frame is shown.

`Controller.ReachableFrameInvariant` proves that the invariant holds after `init` and after every run of events that completes, whatever flags the markup starts with. This relies on the assumption, stated under "## Left out", that an id named by `aria-controls` or `data-prev-region` never belongs to a frame, a view trigger or a marker.

Behaviours of the code worth stating plainly:

- **Desktop marker click adds 160.** The marker handlers pass the marker as the control (`src/story-map.js:498`, `529`). The desktop branch with a control therefore adds 160 (`302`) to the last strictly larger of the map and content heights. The 150 (`349`) belongs only to the recomputation without a control, which `onResizeLoadHeightAdjust` runs (`673-685`).
- **Collapsed markers keep `aria-expanded`.** `resetMarkersContent` sets `aria-expanded="false"` on every non-listing marker rather than removing the attribute (`138`). Listing markers keep whatever value they had (`137`).
- **Only the value is guarded against division by zero.** `getPercent` skips the division only when the value is empty (`src/tuftsBlockStoryMap.php:202-203`). A non-empty child coordinate divided by an empty or zero parent aspect-ratio field (`126-127`) raises PHP's division-by-zero error, and `build()` fails.
- **A marker click neither checks the frame nor resets regions.** `onClickMarker` calls `activateFrame('regions')` whatever frame is shown (`489`). It then resets markers and content but never calls `resetRegions` (`487-505`), so regions activated earlier stay active.

## Model

| member | source | states |
|---|---|---|
| `StoryMap.ParseFrame` | src/story-map.js:44-70 | only "world", "list" and "regions" name a frame; any other string names none |
| `StoryMap.ActivateFrame` | src/story-map.js:43-82 | a frame name leaves exactly that frame shown. World: map trigger active with "true", list trigger inactive with "false". List: the reverse. Regions: both triggers inactive with "false". Any other name changes nothing. Markers, active ids and state never change |
| `StoryMap.ResetMarker` | src/story-map.js:134-152 | one marker loses `is-active`. A non-listing marker gets `aria-expanded="false"`. A non-mobile marker gets `tabindex="-1"` and `aria-hidden="true"` on mobile, and both removed on desktop. A mobile marker keeps both |
| `StoryMap.ResetMarkersContent` | src/story-map.js:132-158 | every marker is reset as above and keeps its classes and read-only attributes; every content block loses `is-active`; nothing else changes |
| `StoryMap.ResetRegions` | src/story-map.js:170-174 | every region loses `is-active` and nothing else changes |
| `StoryMap.ActivateAll` | src/story-map.js:109-117 | succeeds iff every controlled id resolves; the active set grows by exactly those ids; the target marker ends active and, unless listing, expanded; other markers and all other fields are unchanged; the first unresolved id is the fault |
| `StoryMap.ActivateContent` | src/story-map.js:103-118 | a missing `aria-controls` is a fault. Otherwise it succeeds iff every id of the ", "-split list resolves, and it activates exactly those ids plus the marker, which is expanded unless it is a listing marker |
| `StoryMap.ActivateParentContent` | src/story-map.js:96-102 | the only change is that `content-<data-prev-region>` becomes active; it faults iff that id does not resolve |
| `StoryMap.FocusTarget` | src/story-map.js:185-197 | the focus target is the `data-next-focus` id ("null" when absent); it faults iff no element has that id |
| `StoryMap.ActivateFrameLastWins` | src/story-map.js:43-82 | activating a frame after any other call gives the same view as activating it alone |
| `StoryMap.ResetMarkersContentIdempotent` | src/story-map.js:132-158 | resetting markers and content twice equals resetting once |
| `StoryMap.ResetsCommute` | src/story-map.js:132-174 | `resetMarkersContent` and `resetRegions` commute |
| `StoryMap.HelpersKeepFrames` | src/story-map.js:95-174 | the resets and both content activations preserve the frame invariant |
| `Strings.Split` | src/story-map.js:105-106 | `split(', ')` always yields at least one piece; the empty string yields one empty piece |
| `Strings.Join` | src/story-map.js:105-106 | the joined string starts with the first piece; one piece joins to itself |
| `Strings.JoinSplit` | src/story-map.js:105-106 | re-joining the pieces of any attribute value restores it exactly |
| `Strings.SplitJoin` | src/story-map.js:105-106 | a list of comma-free ids survives join-then-split unchanged |
| `Strings.ReplaceDoubleDash` | src/tuftsBlockStoryMap.php:125 | the machine name is never longer than the class string, and is non-empty when the class string is |
| `Strings.ReplaceWithoutDoubleDash` | src/tuftsBlockStoryMap.php:125 | a class string without "--" is its own machine name |
| `Strings.ReplaceShortens` | src/tuftsBlockStoryMap.php:125 | a class string with "--" gets strictly shorter |
| `Strings.ReplaceFixedIff` | src/tuftsBlockStoryMap.php:125 | the replacement changes the string iff it contains "--" |
| `Strings.ReplaceKeepsNonDash` | src/tuftsBlockStoryMap.php:137 | only dashes are removed; all other characters keep their order |
| `Strings.ReplaceNotIdempotent` | src/tuftsBlockStoryMap.php:137 | one pass only: "---" becomes "--", which still contains "--" |
| `Height.StrictMax` | src/story-map.js:354-361 | the desktop comparison picks the larger height when they differ and takes neither branch on a tie |
| `Height.Contribution` | src/story-map.js:277-294 | one controlled element adds at least its region map height, its content height and its mobile navigation height, as applicable |
| `Height.MobileSum` | src/story-map.js:274-294 | the sum succeeds iff every controlled id names a measured element; otherwise the first missing id is the fault; the sum bounds each contribution |
| `Height.MobileSumSnoc` | src/story-map.js:274-294 | one more measured id adds exactly its contribution to the running total |
| `Height.MobileControlledHeight` | src/story-map.js:271-299 | the running-total loop ends with 240 plus the sum of the contributions, or with the same fault as the sum |
| `Height.DesktopFold` | src/story-map.js:301-331 | succeeds iff every id is measured. When the last map and content heights differ, the total is their maximum. The total is always a height it read or the starting value |
| `Height.DesktopFoldSnoc` | src/story-map.js:308-326 | one more measured id updates the map height if it is a region and the content height if it is content, then sets the total to the larger of the two when they differ; on a tie the total is the one before the step |
| `Height.ControlledHeight` | src/story-map.js:268-331 | with a control, the height exists iff every controlled id is measured; mobile gives 240 plus the running sum of the contributions, desktop the desktop scan's total plus 160, so at least 240 and 160 respectively |
| `Height.FrameHeight` | src/story-map.js:230-367 | world, mobile: wrapper + nav + 40. World, desktop: wrapper − 8. List: the list height. Regions without control: mobile is map + content + nav + 240; desktop is max + 150, or 150 on a tie. Regions with a control lacking `aria-controls`: a fault. Regions with `aria-controls`: the controlled height of its ", "-split ids |
| `Height.AdjustHeight` | src/story-map.js:230-367 | a string naming no frame assigns nothing; a frame name assigns exactly the frame's height or stops with its fault. World, list and the missing-attribute fault as above; with `aria-controls`, success iff every id is measured |
| `Height.ControlledPairIsMax` | src/story-map.js:301-331 | with one region and one content block as control on desktop, the block size is max + 160, ties included |
| `Height.DesktopTieKeepsEarlierTotal` | src/story-map.js:319-326 | on a final tie the desktop total keeps a height picked up earlier, here 500 where the last heights are both 100 |
| `Controller.BackToWorld` | src/story-map.js:565-572 | reset, reset regions, world: world shown, invariant holds, nothing active, every non-listing marker collapsed; every marker is exactly `resetMarkersContent`'s reset of it; regions, content blocks and other elements are kept |
| `Controller.OnListTrigger` | src/story-map.js:377-392 | always succeeds: list shown, invariant holds, nothing active, every marker exactly as `resetMarkersContent` leaves it, the element sets kept, block size is the list height, announces the list |
| `Controller.OnMapTrigger` | src/story-map.js:431-446 | always succeeds: world shown, invariant holds, nothing active, every marker exactly as `resetMarkersContent` leaves it, the element sets kept, the world block size for the state, announces the world map |
| `Controller.MarkerView` | src/story-map.js:487-495 | succeeds iff the marker has `aria-controls` and every id in it resolves. The regions frame is then shown with the invariant. Active ids are the previous ones minus content, plus the controlled ids. The marker is reset then expanded; every other marker is exactly its reset (inactive and, unless listing, collapsed, with `tabindex`/`aria-hidden` for the state and its other attributes kept) |
| `Controller.ControlledRegions` | src/story-map.js:268-331 | the regions height with `aria-controls` exists iff every id of the split list is measured, and is 240 plus the mobile sum or the desktop scan's total plus 160 |
| `Controller.OnMarker` | src/story-map.js:487-505 | succeeds iff the marker has `aria-controls`, every id in it resolves and can be measured, and its `data-next-focus` resolves; a missing `aria-controls` is that fault. The view is the one `MarkerView` builds. Block size is 240 plus the mobile sum, or the desktop scan's total plus 160. Focus and announcement come from the marker |
| `Controller.OnMarkerView` | src/story-map.js:487-505 | when the markup lets a marker click complete, it completes; the regions frame is then shown with the invariant. Active ids are the previous ones minus content, plus the controlled ids. Only the clicked marker is active; it is expanded unless listing; every other marker is exactly its reset |
| `Controller.AgreeingMarkerCompletes` | src/story-map.js:103-118 | when the measured heights agree with the view, the marker handler completes iff `aria-controls` is present and its ids and the focus target resolve |
| `Controller.OnBack` | src/story-map.js:547-583 | completes iff the markup resolves. With `data-prev-region`, that means the parent content, measured `aria-controls` ids and the focus target; without it, only the focus target. With `data-prev-region`, frames are unchanged and exactly the parent content is active among content blocks, announced by `data-announce`. Without it, the world is shown with everything reset and the world block size for the state. With it, the block size is 240 plus the mobile sum or the desktop scan's total plus 160 over the trigger's `aria-controls`. Either way every marker is exactly as `resetMarkersContent` leaves it, regions, content blocks and other elements are kept, and focus goes to `data-next-focus` |
| `Controller.OnMediaChange` | src/story-map.js:642-663 | state is desktop iff the query matches; always ends in the world frame with everything reset; every marker is exactly its reset under the new state, so non-mobile markers get `tabindex="-1"` and `aria-hidden="true"` on mobile and neither on desktop, and mobile markers keep both; the element sets are kept |
| `Controller.OnResizeLoad` | src/story-map.js:673-685 | recomputes without control for the shown frame; the list wins if several are flagged; nothing when none is |
| `Controller.OnActivate` | src/story-map.js:377-633 | the view triggers always complete; a marker or back trigger completes iff its markup resolves, as for `OnMarker` and `OnBack`. The list trigger ends in list, the map trigger in world, a marker in regions, a back trigger without `data-prev-region` in world, and one with it changes nothing but markers and active ids; the invariant is preserved |
| `Controller.Dispatch` | src/story-map.js:706-725 | a click runs the control's handler; keydown runs the same handler on Enter or Space and changes nothing otherwise. Resize and load never change the view. A media change ends in world. The invariant is preserved |
| `Controller.Init` | src/story-map.js:721-722 | from any markup, `init` ends in the world frame with the invariant holding and the state matching the query |
| `Controller.Run` | src/story-map.js:706-726 | a run of events keeps the number of markers and preserves the frame invariant |
| `Controller.ReachableFrameInvariant` | src/story-map.js:694-727 | every view reachable from `init` by completed events satisfies the frame invariant |
| `Controller.DesktopMarkerScenario` | src/story-map.js:301-331 | a desktop click on a marker controlling a region and a content block completes when both are measured, the focus target exists and the heights agree with the view: both active, block size max + 160 |
| `Controller.MobileMarkerScenario` | src/story-map.js:271-299 | a mobile click on a marker controlling two existing, measured elements completes under the same conditions: both active, block size is the two contributions plus 240 |
| `RegionBlock.GetPercent` | src/tuftsBlockStoryMap.php:199-207 | an empty value gives 0. Otherwise: success iff the context is non-zero, with value round(value / context × 100); failure is division by zero |
| `RegionBlock.GuardOnlyAvoidsDivision` | src/tuftsBlockStoryMap.php:199-206 | with a non-zero context and rounding that keeps 0 at 0, the empty guard changes no result; with a zero context it succeeds iff the value is empty |
| `RegionBlock.ChildEntryOf` | src/tuftsBlockStoryMap.php:122-130 | a child record copies id, name and rendered fields, and takes its machine name from the class string; x and y are relative to the parent's aspect-ratio fields; it fails iff a non-empty coordinate meets a zero context |
| `RegionBlock.ChildEntries` | src/tuftsBlockStoryMap.php:117-131 | exactly one record per loaded child, in load order, each the child's record |
| `RegionBlock.ParentEntryOf` | src/tuftsBlockStoryMap.php:134-145 | a parent record is positioned against 1304 and 850, passes the aspect-ratio fields through and holds its children's records |
| `RegionBlock.TopLevel` | src/tuftsBlockStoryMap.php:108-110 | keeps exactly the terms whose parent is 0, and every term when all are top-level |
| `RegionBlock.TopLevelAppend` | src/tuftsBlockStoryMap.php:108-110 | the filter keeps input order: it distributes over concatenation, and a single term survives iff its parent is 0 |
| `RegionBlock.MapRegions` | src/tuftsBlockStoryMap.php:108-147 | one entry per top-level term in input order, each built from the children loaded for it; fails iff some child cannot be positioned; no top-level term gives an empty list |
| `RegionBlock.ParentEntries` | src/tuftsBlockStoryMap.php:134-145 | exactly one record per top-level term, in order, each the term's record; succeeds iff every child of every term can be positioned |
| `RegionBlock.Build` | src/tuftsBlockStoryMap.php:100-166 | output keys are among the three. `map_description` is present iff a description is set, `map_heading` iff the heading is non-empty, `map_regions` iff some term is top-level. Values are passed through |
| `RegionBlock.ZeroHeadingDropped` | src/tuftsBlockStoryMap.php:157-159 | a heading of "0" is omitted, since PHP treats "0" as empty |
| `RegionBlock.NonZeroAspectBuilds` | src/tuftsBlockStoryMap.php:126-127 | `build()` cannot fail when every top-level term has non-zero aspect-ratio fields |

## Left out

- **Elements found by class.** Real DOM queries and `offsetHeight` measurement are not modelled. The heights are `nat` inputs (`Height.Measures`) and `adjustHeight` returns the integer; the `px` string formatting is not modelled. Elements found by class (the frames, map wrappers, mobile navigation) are assumed present. The recomputation without a control reads the active region's map wrapper, active content and mobile navigation through `.o-story-map__region.is-active …` selectors (`src/story-map.js:337-339`, `350-351`). When no region is active those selectors find nothing and the source throws on `null.offsetHeight`; the model takes the heights as given (`regionWrapper`, `regionContent`, `regionNav`), so `onResizeLoadHeightAdjust` returns a height there. Apart from these, only lookups by id can fault.
- **Elements addressed by id.** The model assumes that ids named by `aria-controls`, `data-prev-region` and `data-next-focus` belong to regions, content blocks or other elements, never to a frame, a view trigger or a marker. In the source `wrapper.querySelector('#…')` reaches any descendant (`src/story-map.js:99`, `110`). A marker whose `aria-controls` named the list frame would leave two frames active, and one naming another marker would leave two markers active. Neither can happen in the model.
- **Heights by id.** The heights `adjustHeight` reads by id (`Height.Measures.targets`) are an input separate from the view. `Controller.MeasuresAgree` states when they describe the same elements: the same ids, the region class exactly on regions, the region-content class exactly on content blocks. The handlers do not require it. `Controller.AgreeingMarkerCompletes` and the two marker scenarios assume it.
- **Selector validity.** A `#id` lookup is modelled as "the id is non-empty and belongs to an element". Selector syntax errors for other malformed ids are not modelled.
- **Partial updates before a fault.** A handler that faults is reported as `Err`. The DOM changes it made before the fault are not described.
- **Focus timing.** `setFocus`'s 500 ms `setTimeout`, `scrollIntoView` and the stale-focus race are not modelled. The model records only which id would receive focus.
- **Runtime APIs.** `Drupal.t`, `Drupal.announce`, `once()`, `window.matchMedia` and listener registration are runtime APIs. The announcement is kept as an untranslated string. The media query becomes a boolean input. The listeners become the `Controller.Event` datatype.
- **Drupal back end.** Entity storage (`loadTree`) is the function parameter `childrenOf`. `Html::getClass` is taken as given in `Term.cssClass`. Field `->view('default')` render arrays are opaque strings. `blockForm`, `blockSubmit` and `create` are not modelled. The children are loaded to depth 2, so they include grandchildren in a deeper vocabulary; the model takes whatever the loader returns.
- **Numbers and rounding.** Floating-point division and PHP `round` are not modelled. `getPercent` works over reals, with `round` an uninterpreted function parameter. PHP's numeric strings are reduced to NULL or a number: a stored "0.0", which PHP's `empty()` treats as non-empty, is not distinguished from 0.
- **Nested back triggers.** The region detail's nested parent/child content is tracked only through which content ids are active.

=== FILE: base.dfy ===
/**
 * The two wrappers every module of the story-map model shares: an optional
 * value, and the outcome of a handler step, which `:-` unwraps or passes on.
 */
module Base {

  /** A value that may be absent: a `null` attribute, an unset configuration entry. */
  datatype Option<T> = None | Some(value: T)

  /** The outcome of an operation that either completes or stops with a fault. */
  datatype Result<T, E> = Ok(value: T) | Err(error: E) {

    /** A fault stops the step that met it. */
    predicate IsFailure() {
      Err?
    }

    /** The fault, passed on to the enclosing step. */
    function PropagateFailure<U>(): Result<U, E>
      requires Err?
    {
      Err(error)
    }

    /** The value a completed step produced. */
    function Extract(): T
      requires Ok?
    {
      value
    }
  }
}

=== FILE: controller.dfy ===
/**
 * The event handlers of the story-map controller, each the composition of the
 * helpers in the order the source calls them, followed by the height
 * recomputation, the focus move and the live-region announcement. Also the
 * initialisation and a run over a sequence of events, with the frame
 * invariant every reachable view keeps.
 */
module Controller {
  import opened Base
  import opened StoryMap
  import opened Height

  /**
   * What one handler leaves behind: the new view, the block size it assigned
   * to the map frame (if any), the id it moves focus to (if any) and the text
   * it announces (if any).
   */
  datatype Step = Step(view: View, blockSize: Option<int>, focus: Option<string>, announcement: Option<string>)

  /** The elements carrying click and keydown listeners. */
  datatype Control = ListTrigger | MapTrigger | MarkerAt(index: nat) | Back(trigger: BackTrigger)

  /** The events the controller listens to. */
  datatype Event = Click(control: Control) | Keydown(control: Control, key: string) | MediaChange(matches: bool) | ResizeOrLoad

  const WorldAnnouncement: string := "Now viewing the world map"
  const ListAnnouncement: string := "Now viewing list of regions"

  /** The announcement for a region, named by a marker's text or a back trigger's `data-announce`. */
  function RegionAnnouncement(name: string): string {
    "Now viewing the " + name + " region"
  }

  /** Keydown handlers act only on Enter and Space. */
  predicate ActivationKey(key: string) {
    key == "Enter" || key == " "
  }

  /** No marker, content block or region carries `is-active`. */
  predicate AllReset(v: View) {
    && (forall k :: 0 <= k < |v.markers| ==> !v.markers[k].active)
    && v.active !! v.contents
    && v.active !! v.regions
  }

  /** Every non-listing marker other than `i` is collapsed. */
  predicate OthersCollapsed(v: View, i: int) {
    forall k :: 0 <= k < |v.markers| && k != i && !v.markers[k].listing ==> v.markers[k].ariaExpanded == Present("false")
  }

  /** The sequence shared by the map trigger, the back-to-world trigger and a media-query change. */
  function BackToWorld(v: View): (r: View)
    ensures Shows(r, World) && FrameInvariant(r) && AllReset(r)
    ensures r.state == v.state && |r.markers| == |v.markers|
    ensures r.regions == v.regions && r.contents == v.contents && r.others == v.others
    ensures r.active == v.active - v.contents - v.regions
    ensures r.markers == ResetMarkersContent(v).markers
    ensures OthersCollapsed(r, -1)
  {
    ActivateFrame(ResetRegions(ResetMarkersContent(v)), "world")
  }

  /** `onClickListTrigger`: resets everything and shows the list. */
  function OnListTrigger(v: View, m: Measures): (r: Result<Step, Fault>)
    ensures r.Ok?
    ensures Shows(r.value.view, List) && FrameInvariant(r.value.view) && AllReset(r.value.view)
    ensures r.value.view.state == v.state && |r.value.view.markers| == |v.markers|
    ensures r.value.view.active == v.active - v.contents - v.regions
    ensures r.value.view.markers == ResetMarkersContent(v).markers
    ensures r.value.view.regions == v.regions && r.value.view.contents == v.contents && r.value.view.others == v.others
    ensures r.value.blockSize == Some(m.list)
    ensures r.value.focus == None && r.value.announcement == Some(ListAnnouncement)
  {
    var w := ActivateFrame(ResetRegions(ResetMarkersContent(v)), "list");
    var h := FrameHeight(List, w.state, m, None).value;
    Ok(Step(w, Some(h), None, Some(ListAnnouncement)))
  }

  /** `onClickMapTrigger`: resets everything and shows the world map. */
  function OnMapTrigger(v: View, m: Measures): (r: Result<Step, Fault>)
    ensures r.Ok?
    ensures Shows(r.value.view, World) && FrameInvariant(r.value.view) && AllReset(r.value.view)
    ensures r.value.view.state == v.state && |r.value.view.markers| == |v.markers|
    ensures r.value.view.active == v.active - v.contents - v.regions
    ensures r.value.view.markers == ResetMarkersContent(v).markers
    ensures r.value.view.regions == v.regions && r.value.view.contents == v.contents && r.value.view.others == v.others
    ensures v.state == Mobile ==> r.value.blockSize == Some(m.worldWrapper + m.worldNav + 40)
    ensures v.state == Desktop ==> r.value.blockSize == Some(m.worldWrapper - 8)
    ensures r.value.focus == None && r.value.announcement == Some(WorldAnnouncement)
  {
    var w := BackToWorld(v);
    var h := FrameHeight(World, w.state, m, None).value;
    Ok(Step(w, Some(h), None, Some(WorldAnnouncement)))
  }

  /**
   * The heights measured by id belong to exactly the elements a selector
   * `#id` reaches in the view, and an element has the region or
   * region-content class exactly when it is listed among the regions or the
   * content blocks.
   */
  ghost predicate MeasuresAgree(v: View, m: Measures) {
    && (forall id :: Resolves(v, id) <==> Measured(m.targets, id))
    && (forall id :: Measured(m.targets, id) ==>
          (m.targets[id].isRegion <==> id in v.regions) && (m.targets[id].isContent <==> id in v.contents))
  }

  /**
   * The markup lets a marker handler complete: the marker has `aria-controls`,
   * every id in it names an element that can be measured, and its
   * `data-next-focus` names an element.
   */
  predicate MarkerCompletes(v: View, m: Measures, i: nat)
    requires i < |v.markers|
  {
    && v.markers[i].controls.Present?
    && (forall id :: id in Strings.Split(v.markers[i].controls.value) ==> Resolves(v, id) && Measured(m.targets, id))
    && Resolves(v, AttrText(v.markers[i].nextFocus))
  }

  /**
   * The markup lets a back-trigger handler complete. With `data-prev-region`,
   * the parent content exists, `aria-controls` is present and names measured
   * elements, and `data-next-focus` names an element. Without it, only the
   * focus target must exist.
   */
  predicate BackCompletes(v: View, m: Measures, b: BackTrigger) {
    if Truthy(b.prevRegion) then
      && Resolves(v, PrevContentId(b))
      && b.controls.Present?
      && (forall id :: id in Strings.Split(b.controls.value) ==> Measured(m.targets, id))
      && Resolves(v, AttrText(b.nextFocus))
    else
      Resolves(v, AttrText(b.nextFocus))
  }

  /**
   * When the measured heights agree with the view, a marker handler
   * completes exactly when the markup resolves: `activateContent` finding
   * every controlled id means `adjustHeight` finds them too.
   */
  lemma AgreeingMarkerCompletes(v: View, m: Measures, i: nat)
    requires i < |v.markers| && MeasuresAgree(v, m)
    ensures MarkerCompletes(v, m, i) <==> (v.markers[i].controls.Present?
      && (forall id :: id in Strings.Split(v.markers[i].controls.value) ==> Resolves(v, id))
      && Resolves(v, AttrText(v.markers[i].nextFocus)))
  {
  }

  /**
   * The DOM part of `onClickMarker`: show the regions frame, reset markers
   * and content, then activate what marker `i` controls.
   */
  function MarkerView(v: View, i: nat): (r: Result<View, Fault>)
    requires i < |v.markers|
    ensures v.markers[i].controls.Absent? ==> r == Err(MissingAttribute("aria-controls"))
    ensures r.Ok? <==> (v.markers[i].controls.Present?
      && forall id :: id in Strings.Split(v.markers[i].controls.value) ==> Resolves(v, id))
    ensures r.Ok? ==>
      r.value.active == (v.active - v.contents) + (set id | id in Strings.Split(v.markers[i].controls.value))
    ensures r.Ok? ==> Shows(r.value, Regions) && FrameInvariant(r.value)
    ensures r.Ok? ==> r.value.state == v.state && |r.value.markers| == |v.markers|
    ensures r.Ok? ==> r.value.regions == v.regions && r.value.contents == v.contents && r.value.others == v.others
    ensures r.Ok? ==> r.value.markers[i] == Expanded(ResetMarker(v.markers[i], v.state))
    ensures r.Ok? ==> forall k :: 0 <= k < |v.markers| && k != i ==> !r.value.markers[k].active
    ensures r.Ok? ==> forall k :: 0 <= k < |v.markers| && k != i ==> r.value.markers[k] == ResetMarker(v.markers[k], v.state)
    ensures r.Ok? ==> OthersCollapsed(r.value, i)
  {
    var shown := ActivateFrame(v, "regions");
    var reset := ResetMarkersContent(shown);
    ActivateContent(reset, i)
  }

  /**
   * The regions height with a present control, in the terms the handlers
   * state: it exists exactly when every controlled id is measured, and is
   * the mobile sum or the desktop scan total plus the frame's extra.
   */
  lemma ControlledRegions(st: Responsive, m: Measures, c: Attr)
    ensures c.Present? ==> var h := FrameHeight(Regions, st, m, Some(c)); var ids := Strings.Split(c.value);
      && (h.Ok? <==> forall id :: id in ids ==> Measured(m.targets, id))
      && (st == Mobile && h.Ok? ==> MobileSum(ids, m.targets).Ok? && h.value == MobileSum(ids, m.targets).value + 240)
      && (st == Desktop && h.Ok? ==>
            var scan := DesktopFold(ids, m.targets, DesktopScan(0, 0, 0));
            scan.Ok? && h.value == scan.value.total + 160)
  {
    if c.Present? {
      var ids := Strings.Split(c.value);
      assert (forall id :: id in ids ==> Measured(m.targets, id)) <==>
        (forall k :: 0 <= k < |ids| ==> Measured(m.targets, ids[k]));
    }
  }

  /**
   * `onClickMarker`: shows the regions frame, resets markers and content,
   * activates what marker `i` controls, recomputes the height with the marker
   * as control and moves focus. Regions are not reset here.
   */
  function OnMarker(v: View, m: Measures, i: nat): (r: Result<Step, Fault>)
    requires i < |v.markers|
    ensures v.markers[i].controls.Absent? ==> r == Err(MissingAttribute("aria-controls"))
    ensures r.Ok? <==> MarkerCompletes(v, m, i)
    ensures r.Ok? ==> MarkerView(v, i) == Ok(r.value.view)
    ensures r.Ok? ==> r.value.focus == Some(AttrText(v.markers[i].nextFocus))
    ensures r.Ok? ==> r.value.announcement == Some(RegionAnnouncement(v.markers[i].text))
    ensures r.Ok? ==> r.value.blockSize.Some?
    ensures r.Ok? && v.state == Desktop ==> r.value.blockSize.value >= 160
    ensures r.Ok? && v.state == Mobile ==> r.value.blockSize.value >= 240
    ensures r.Ok? && v.state == Mobile ==>
      var sum := MobileSum(Strings.Split(v.markers[i].controls.value), m.targets);
      sum.Ok? && r.value.blockSize == Some(sum.value + 240)
    ensures r.Ok? && v.state == Desktop ==>
      var scan := DesktopFold(Strings.Split(v.markers[i].controls.value), m.targets, DesktopScan(0, 0, 0));
      scan.Ok? && r.value.blockSize == Some(scan.value.total + 160)
  {
    var w :- MarkerView(v, i);
    ControlledRegions(v.state, m, v.markers[i].controls);
    var h :- FrameHeight(Regions, v.state, m, Some(v.markers[i].controls));
    var f :- FocusTarget(w, w.markers[i].nextFocus);
    Ok(Step(w, Some(h), Some(f), Some(RegionAnnouncement(w.markers[i].text))))
  }

  /**
   * When the markup lets `onClickMarker` complete, it does, and the view it
   * leaves behind has what the marker controls active and nothing else of
   * the content, the regions frame shown, and only marker `i` expanded.
   */
  lemma OnMarkerView(v: View, m: Measures, i: nat)
    requires i < |v.markers| && MarkerCompletes(v, m, i)
    ensures OnMarker(v, m, i).Ok?
    ensures var ids := Strings.Split(v.markers[i].controls.value); var w := OnMarker(v, m, i).value.view;
      && (forall id :: id in ids ==> Resolves(v, id) && Measured(m.targets, id))
      && w.active == (v.active - v.contents) + (set id | id in ids)
    ensures var w := OnMarker(v, m, i).value.view;
      && Shows(w, Regions) && FrameInvariant(w)
      && w.state == v.state && |w.markers| == |v.markers|
      && w.markers[i].active
      && (!v.markers[i].listing ==> w.markers[i].ariaExpanded == Present("true"))
      && (forall k :: 0 <= k < |v.markers| && k != i ==> !w.markers[k].active)
      && (forall k :: 0 <= k < |v.markers| && k != i ==> w.markers[k] == ResetMarker(v.markers[k], v.state))
      && OthersCollapsed(w, i)
  {
  }

  /**
   * `onClickBackTrigger`: with a `data-prev-region`, returns to the parent
   * region's content and leaves the frame flags as they are; without one,
   * resets everything and shows the world map. Either way focus moves.
   */
  function OnBack(v: View, m: Measures, b: BackTrigger): (r: Result<Step, Fault>)
    ensures r.Ok? <==> BackCompletes(v, m, b)
    ensures Truthy(b.prevRegion) && r.Ok? ==>
      && r.value.view == v.(markers := r.value.view.markers, active := r.value.view.active)
      && r.value.view.active == (v.active - v.contents) + {PrevContentId(b)}
      && r.value.announcement == Some(RegionAnnouncement(AttrText(b.announce)))
    ensures Truthy(b.prevRegion) && b.controls.Absent? && Resolves(v, PrevContentId(b)) ==>
      r == Err(MissingAttribute("aria-controls"))
    ensures !Truthy(b.prevRegion) ==> (r.Ok? <==> Resolves(v, AttrText(b.nextFocus)))
    ensures !Truthy(b.prevRegion) && r.Ok? ==>
      && Shows(r.value.view, World) && FrameInvariant(r.value.view) && AllReset(r.value.view)
      && r.value.view.active == v.active - v.contents - v.regions
      && r.value.announcement == Some(WorldAnnouncement)
    ensures r.Ok? ==> r.value.view.state == v.state && |r.value.view.markers| == |v.markers|
    ensures r.Ok? ==> r.value.view.markers == ResetMarkersContent(v).markers
    ensures r.Ok? ==> r.value.view.regions == v.regions && r.value.view.contents == v.contents && r.value.view.others == v.others
    ensures r.Ok? ==> forall k :: 0 <= k < |v.markers| ==> !r.value.view.markers[k].active
    ensures r.Ok? ==> r.value.focus == Some(AttrText(b.nextFocus)) && r.value.blockSize.Some?
    ensures !Truthy(b.prevRegion) && r.Ok? ==>
      r.value.blockSize == Some(if v.state == Mobile then m.worldWrapper + m.worldNav + 40 else m.worldWrapper - 8)
    ensures Truthy(b.prevRegion) && r.Ok? && v.state == Mobile ==>
      var sum := MobileSum(Strings.Split(b.controls.value), m.targets);
      sum.Ok? && r.value.blockSize == Some(sum.value + 240)
    ensures Truthy(b.prevRegion) && r.Ok? && v.state == Desktop ==>
      var scan := DesktopFold(Strings.Split(b.controls.value), m.targets, DesktopScan(0, 0, 0));
      scan.Ok? && r.value.blockSize == Some(scan.value.total + 160)
  {
    if Truthy(b.prevRegion) then
      var reset := ResetMarkersContent(v);
      var w :- ActivateParentContent(reset, b);
      ControlledRegions(v.state, m, b.controls);
      var h :- FrameHeight(Regions, v.state, m, Some(b.controls));
      var f :- FocusTarget(w, b.nextFocus);
      Ok(Step(w, Some(h), Some(f), Some(RegionAnnouncement(AttrText(b.announce)))))
    else
      var w := BackToWorld(v);
      var h := FrameHeight(World, w.state, m, None).value;
      var f :- FocusTarget(w, b.nextFocus);
      Ok(Step(w, Some(h), Some(f), Some(WorldAnnouncement)))
  }

  /**
   * `onMediaQueryChange`: desktop exactly when the query matches, then
   * everything is reset to the world map under the new state.
   */
  function OnMediaChange(v: View, m: Measures, matches: bool): (r: Result<Step, Fault>)
    ensures r.Ok?
    ensures r.value.view.state == Desktop <==> matches
    ensures Shows(r.value.view, World) && FrameInvariant(r.value.view) && AllReset(r.value.view)
    ensures |r.value.view.markers| == |v.markers|
    ensures OthersCollapsed(r.value.view, -1)
    ensures forall k :: 0 <= k < |v.markers| && !v.markers[k].mobile ==>
      r.value.view.markers[k].tabindex == (if matches then Absent else Present("-1"))
    ensures r.value.view.active == v.active - v.contents - v.regions
    ensures r.value.view.markers == ResetMarkersContent(v.(state := if matches then Desktop else Mobile)).markers
    ensures r.value.view.regions == v.regions && r.value.view.contents == v.contents && r.value.view.others == v.others
    ensures r.value.blockSize == Some(if matches then m.worldWrapper - 8 else m.worldWrapper + m.worldNav + 40)
    ensures r.value.announcement == Some(WorldAnnouncement)
  {
    var st := if matches then Desktop else Mobile;
    var w := BackToWorld(v.(state := st));
    var h := FrameHeight(World, w.state, m, None).value;
    Ok(Step(w, Some(h), None, Some(WorldAnnouncement)))
  }

  /** The block size after `next` when it assigns one, else the one before. */
  function Override(prev: Option<int>, next: Result<int, Fault>): Option<int> {
    if next.Ok? then Some(next.value) else prev
  }

  /**
   * `onResizeLoadHeightAdjust`: recomputes the height for each active frame
   * in the order world, regions, list, with no control; the last assignment
   * stands.
   */
  function OnResizeLoad(v: View, m: Measures): (r: Option<int>)
    ensures !v.mapWorld && !v.mapRegions && !v.mapList ==> r == None
    ensures v.mapList ==> r == Some(m.list)
    ensures Shows(v, World) && v.state == Mobile ==> r == Some(m.worldWrapper + m.worldNav + 40)
    ensures Shows(v, World) && v.state == Desktop ==> r == Some(m.worldWrapper - 8)
    ensures Shows(v, Regions) && v.state == Mobile ==> r == Some(m.regionWrapper + m.regionContent + m.regionNav + 240)
    ensures Shows(v, Regions) && v.state == Desktop ==>
      r == Some(if m.regionWrapper == m.regionContent then 150 else Max(m.regionWrapper, m.regionContent) + 150)
  {
    var afterWorld := if v.mapWorld then Override(None, FrameHeight(World, v.state, m, None)) else None;
    var afterRegions := if v.mapRegions then Override(afterWorld, FrameHeight(Regions, v.state, m, None)) else afterWorld;
    if v.mapList then Override(afterRegions, FrameHeight(List, v.state, m, None)) else afterRegions
  }

  /** A click (or an activating key) on a control. */
  function OnActivate(v: View, m: Measures, c: Control): (r: Result<Step, Fault>)
    requires c.MarkerAt? ==> c.index < |v.markers|
    ensures r.Ok? ==> r.value.view.state == v.state && |r.value.view.markers| == |v.markers|
    ensures r.Ok? && FrameInvariant(v) ==> FrameInvariant(r.value.view)
    ensures c == ListTrigger ==> r.Ok? && Shows(r.value.view, List)
    ensures c == MapTrigger ==> r.Ok? && Shows(r.value.view, World)
    ensures c.MarkerAt? ==> (r.Ok? <==> MarkerCompletes(v, m, c.index))
    ensures c.Back? ==> (r.Ok? <==> BackCompletes(v, m, c.trigger))
    ensures c.MarkerAt? && r.Ok? ==> Shows(r.value.view, Regions)
    ensures c.Back? && !Truthy(c.trigger.prevRegion) && r.Ok? ==> Shows(r.value.view, World)
    ensures c.Back? && Truthy(c.trigger.prevRegion) && r.Ok? ==>
      var w := r.value.view; w == v.(markers := w.markers, active := w.active)
  {
    match c
    case ListTrigger => OnListTrigger(v, m)
    case MapTrigger => OnMapTrigger(v, m)
    case MarkerAt(i) => OnMarker(v, m, i)
    case Back(b) => OnBack(v, m, b)
  }

  /** The event can reach this view: a marker event names one of its markers. */
  predicate Targets(v: View, e: Event) {
    IndexFits(|v.markers|, e)
  }

  /** A marker event names one of `n` markers; other events always fit. */
  predicate IndexFits(n: nat, e: Event) {
    match e
    case Click(c) => c.MarkerAt? ==> c.index < n
    case Keydown(c, _) => c.MarkerAt? ==> c.index < n
    case _ => true
  }

  /** One event, dispatched to its handler. Keydown acts like a click on Enter or Space and does nothing otherwise. */
  function Dispatch(v: View, m: Measures, e: Event): (r: Result<Step, Fault>)
    requires Targets(v, e)
    ensures e.Click? ==> r == OnActivate(v, m, e.control)
    ensures e.Keydown? && !ActivationKey(e.key) ==> r == Ok(Step(v, None, None, None))
    ensures e.Keydown? && ActivationKey(e.key) ==> r == OnActivate(v, m, e.control)
    ensures e == ResizeOrLoad ==> r.Ok? && r.value.view == v
    ensures e.MediaChange? ==> r.Ok? && Shows(r.value.view, World) && (r.value.view.state == Desktop <==> e.matches)
    ensures r.Ok? ==> |r.value.view.markers| == |v.markers|
    ensures r.Ok? && FrameInvariant(v) ==> FrameInvariant(r.value.view)
  {
    match e
    case Click(c) => OnActivate(v, m, c)
    case Keydown(c, key) => if ActivationKey(key) then OnActivate(v, m, c) else Ok(Step(v, None, None, None))
    case MediaChange(matches) => OnMediaChange(v, m, matches)
    case ResizeOrLoad => Ok(Step(v, OnResizeLoad(v, m), None, None))
  }

  /** `init`: the first media-query evaluation, whatever state the markup starts in. */
  function Init(v: View, m: Measures, matches: bool): (r: View)
    ensures FrameInvariant(r) && Shows(r, World) && AllReset(r)
    ensures r.state == Desktop <==> matches
  {
    OnMediaChange(v, m, matches).value.view
  }

  /** Every marker event in `es` names a marker of a view with `n` markers. */
  predicate AllTarget(n: nat, es: seq<Event>) {
    forall k :: 0 <= k < |es| ==> IndexFits(n, es[k])
  }

  /**
   * The view after the events `es`, each handled with the heights `ms` measured
   * for it; the first fault stops the run.
   */
  function Run(v: View, ms: seq<Measures>, es: seq<Event>): (r: Result<View, Fault>)
    requires |ms| == |es| && AllTarget(|v.markers|, es)
    ensures r.Ok? ==> |r.value.markers| == |v.markers|
    ensures r.Ok? && FrameInvariant(v) ==> FrameInvariant(r.value)
    decreases |es|
  {
    if |es| == 0 then Ok(v)
    else
      assert Targets(v, es[0]);
      match Dispatch(v, ms[0], es[0])
      case Err(f) => Err(f)
      case Ok(step) =>
        assert AllTarget(|step.view.markers|, es[1..]) by {
          assert forall k :: 0 <= k < |es| - 1 ==> es[1..][k] == es[k + 1];
        }
        Run(step.view, ms[1..], es[1..])
  }

  /**
   * Whatever the markup starts as, after `init` and any run of events that
   * completes, exactly one frame is shown and the view triggers agree with it.
   */
  lemma {:induction false} ReachableFrameInvariant(v0: View, m0: Measures, matches: bool, ms: seq<Measures>, es: seq<Event>)
    requires |ms| == |es| && AllTarget(|v0.markers|, es)
    ensures |Init(v0, m0, matches).markers| == |v0.markers|
    ensures Run(Init(v0, m0, matches), ms, es).Ok? ==> FrameInvariant(Run(Init(v0, m0, matches), ms, es).value)
  {
    var v := Init(v0, m0, matches);
    assert |OnMediaChange(v0, m0, matches).value.view.markers| == |v0.markers|;
  }

  /**
   * A desktop click on a marker controlling one region and one content block,
   * with a focus target present, completes: both become active and the frame
   * gets the larger of the region's map height and the content height, plus
   * 160.
   */
  lemma DesktopMarkerScenario(v: View, m: Measures, i: nat, region: string, content: string)
    requires i < |v.markers| && v.state == Desktop && MeasuresAgree(v, m)
    requires v.markers[i].controls == Present(region + Strings.Separator + content)
    requires forall k :: 0 <= k < |region| ==> region[k] != ','
    requires forall k :: 0 <= k < |content| ==> content[k] != ','
    requires Measured(m.targets, region) && Measured(m.targets, content)
    requires region != "" && region in v.regions && region !in v.contents
    requires content != "" && content in v.contents && content !in v.regions
    requires Resolves(v, AttrText(v.markers[i].nextFocus))
    ensures OnMarker(v, m, i).Ok?
    ensures var step := OnMarker(v, m, i).value;
      && Shows(step.view, Regions)
      && region in step.view.active && content in step.view.active
      && step.blockSize == Some(Max(m.targets[region].wrapperHeight, m.targets[content].height) + 160)
  {
    var ids := [region, content];
    assert Strings.Join(ids) == region + Strings.Separator + content;
    Strings.SplitJoin(ids);
    assert Resolves(v, region) && Resolves(v, content);
    assert MarkerCompletes(v, m, i);
    ControlledPairIsMax(m, region, content);
  }

  /**
   * A mobile click on a marker controlling two elements, with a focus target
   * present, completes: both become active and the frame gets the sum of both
   * contributions (map wrapper, content and any mobile navigation inside
   * them), plus 240.
   */
  lemma MobileMarkerScenario(v: View, m: Measures, i: nat, region: string, content: string)
    requires i < |v.markers| && v.state == Mobile && MeasuresAgree(v, m)
    requires v.markers[i].controls == Present(region + Strings.Separator + content)
    requires forall k :: 0 <= k < |region| ==> region[k] != ','
    requires forall k :: 0 <= k < |content| ==> content[k] != ','
    requires Resolves(v, region) && Resolves(v, content)
    requires Measured(m.targets, region) && Measured(m.targets, content)
    requires Resolves(v, AttrText(v.markers[i].nextFocus))
    ensures OnMarker(v, m, i).Ok?
    ensures var step := OnMarker(v, m, i).value;
      && region in step.view.active && content in step.view.active
      && step.blockSize == Some(Contribution(m.targets[region]) + Contribution(m.targets[content]) + 240)
  {
    var ids := [region, content];
    assert Strings.Join(ids) == region + Strings.Separator + content;
    Strings.SplitJoin(ids);
    assert MarkerCompletes(v, m, i);
    MobilePairSum(region, content, m.targets);
  }
}

=== FILE: height.dfy ===
/**
 * `adjustHeight`: the block size the controller assigns to the map frame,
 * as an integer function of the frame, the responsive state and the
 * `offsetHeight` values measured in the DOM at the time of the call.
 */
module Height {
  import opened Base
  import opened StoryMap
  import Strings

  /** Added to the world frame on mobile, for the spacing around the map. */
  const WorldMobileExtra: int := 40
  /** Taken off the world map wrapper's height on desktop. */
  const WorldDesktopTrim: int := 8
  /** Added to the regions frame on mobile, with or without a control. */
  const RegionsMobileExtra: int := 240
  /** Added to the regions frame on desktop when the height is recomputed without a control. */
  const RegionsDesktopExtra: int := 150
  /** Added to the regions frame on desktop when a marker or back trigger is the control. */
  const ControlledDesktopExtra: int := 160

  /**
   * An element named in `aria-controls`: whether it is a region and/or a
   * region-content block, the height of its region map wrapper, its own
   * height, and the height of the mobile navigation inside it, if any.
   */
  datatype Target = Target(isRegion: bool, isContent: bool, wrapperHeight: nat, height: nat, mobileNav: Option<nat>)

  /**
   * The heights `adjustHeight` reads. The first six belong to elements found
   * by class: the world map wrapper and its mobile navigation, the list, and
   * the map wrapper, active content and mobile navigation of the active
   * region. `targets` holds the elements reachable by id.
   */
  datatype Measures = Measures(
    worldWrapper: nat,
    worldNav: nat,
    list: nat,
    regionWrapper: nat,
    regionContent: nat,
    regionNav: nat,
    targets: map<string, Target>)

  /** `wrapper.querySelector('#' + id)` finds a measured element. */
  predicate Measured(targets: map<string, Target>, id: string) {
    id != "" && id in targets
  }

  function Max(a: int, b: int): (r: int)
    ensures r >= a && r >= b && (r == a || r == b)
  {
    if a >= b then a else b
  }

  /**
   * The desktop comparison of a map height and a content height: the larger
   * one when they differ; when they are equal neither branch is taken and
   * the running total stays at `tie`.
   */
  function StrictMax(a: int, b: int, tie: int): (r: int)
    ensures a != b ==> r == Max(a, b)
    ensures a == b ==> r == tie
  {
    if a > b then a else if a < b then b else tie
  }

  /** What one controlled element adds to the total on mobile. */
  function Contribution(t: Target): (h: nat)
    ensures h >= (if t.isRegion then t.wrapperHeight else 0)
    ensures h >= (if t.isContent then t.height else 0)
    ensures t.mobileNav.Some? ==> h >= t.mobileNav.value
    ensures !t.isRegion && !t.isContent && t.mobileNav.None? ==> h == 0
  {
    (if t.isRegion then t.wrapperHeight else 0)
    + (if t.isContent then t.height else 0)
    + (match t.mobileNav case Some(n) => n case None => 0)
  }

  /**
   * The sum of the contributions of `ids`, or a fault at the first id that
   * names no element.
   */
  function MobileSum(ids: seq<string>, targets: map<string, Target>): (r: Result<int, Fault>)
    ensures r.Ok? <==> forall k :: 0 <= k < |ids| ==> Measured(targets, ids[k])
    ensures r.Err? ==> exists k :: (0 <= k < |ids| && !Measured(targets, ids[k])
      && (forall j :: 0 <= j < k ==> Measured(targets, ids[j]))
      && r.error == MissingElement("#" + ids[k]))
    ensures r.Ok? ==> r.value >= 0
    ensures r.Ok? ==> forall k :: 0 <= k < |ids| ==> r.value >= Contribution(targets[ids[k]])
    decreases |ids|
  {
    if |ids| == 0 then Ok(0)
    else if !Measured(targets, ids[0]) then Err(MissingElement("#" + ids[0]))
    else
      var rest := MobileSum(ids[1..], targets);
      assert forall k :: 0 <= k < |ids| - 1 ==> ids[1..][k] == ids[k + 1];
      match rest
      case Err(e) => Err(e)
      case Ok(s) => Ok(Contribution(targets[ids[0]]) + s)
  }

  /** Summing a list extended by one measured id adds that id's contribution. */
  lemma {:induction false} MobileSumSnoc(ids: seq<string>, id: string, targets: map<string, Target>)
    requires MobileSum(ids, targets).Ok? && Measured(targets, id)
    ensures MobileSum(ids + [id], targets) == Ok(MobileSum(ids, targets).value + Contribution(targets[id]))
    decreases |ids|
  {
    if |ids| == 0 {
      assert ids + [id] == [id];
    } else {
      assert (ids + [id])[1..] == ids[1..] + [id];
      MobileSumSnoc(ids[1..], id, targets);
    }
  }

  /**
   * The mobile `forEach` of `adjustHeight` with a control: a running total
   * over the controlled ids, the block size reassigned after each one as
   * total + 240. A missing element stops the loop with a fault.
   */
  method MobileControlledHeight(ids: seq<string>, targets: map<string, Target>) returns (r: Result<int, Fault>)
    requires |ids| >= 1
    ensures r.Ok? <==> forall k :: 0 <= k < |ids| ==> Measured(targets, ids[k])
    ensures r.Ok? ==> r == Ok(RegionsMobileExtra + MobileSum(ids, targets).value)
    ensures r.Err? ==> r == MobileSum(ids, targets)
  {
    var total := 0;
    var blockSize := 0;
    var k := 0;
    while k < |ids|
      invariant 0 <= k <= |ids|
      invariant MobileSum(ids[..k], targets) == Ok(total)
      invariant k > 0 ==> blockSize == total + RegionsMobileExtra
    {
      var id := ids[k];
      if !Measured(targets, id) {
        assert ids[..k + 1] == ids[..k] + [id];
        assert forall j :: 0 <= j < k ==> Measured(targets, ids[j]) by {
          assert forall j :: 0 <= j < k ==> ids[..k][j] == ids[j];
        }
        MobileSumPrefixFault(ids, k, targets);
        return Err(MissingElement("#" + id));
      }
      MobileSumSnoc(ids[..k], id, targets);
      assert ids[..k + 1] == ids[..k] + [id];
      total := total + Contribution(targets[id]);
      blockSize := total + RegionsMobileExtra;
      k := k + 1;
    }
    assert ids[..k] == ids;
    return Ok(blockSize);
  }

  /** Two measured ids sum to the two contributions. */
  lemma MobilePairSum(a: string, b: string, targets: map<string, Target>)
    requires Measured(targets, a) && Measured(targets, b)
    ensures MobileSum([a, b], targets) == Ok(Contribution(targets[a]) + Contribution(targets[b]))
  {
    assert [a][1..] == [];
    assert [a, b] == [a] + [b];
    MobileSumSnoc([a], b, targets);
  }

  /** When the first `k` ids are measured and the next is not, the sum faults at that id. */
  lemma {:induction false} MobileSumPrefixFault(ids: seq<string>, k: nat, targets: map<string, Target>)
    requires k < |ids| && !Measured(targets, ids[k])
    requires forall j :: 0 <= j < k ==> Measured(targets, ids[j])
    ensures MobileSum(ids, targets) == Err(MissingElement("#" + ids[k]))
    decreases k
  {
    if k > 0 {
      assert forall j :: 0 <= j < k - 1 ==> ids[1..][j] == ids[j + 1];
      MobileSumPrefixFault(ids[1..], k - 1, targets);
    }
  }

  /** The running values of the desktop `forEach`: last map height, last content height, total. */
  datatype DesktopScan = DesktopScan(mapHeight: int, contentHeight: int, total: int)

  /** The heights a desktop scan over `ids` can pick up. */
  function Candidates(ids: seq<string>, targets: map<string, Target>): set<int> {
    (set id | id in ids && id in targets && targets[id].isRegion :: targets[id].wrapperHeight)
    + (set id | id in ids && id in targets && targets[id].isContent :: targets[id].height)
  }

  /**
   * The desktop `forEach` of `adjustHeight` with a control: each region
   * replaces the map height, each content block the content height, and the
   * total becomes the strictly larger of the two, or stays as it was when
   * they are equal.
   */
  function DesktopFold(ids: seq<string>, targets: map<string, Target>, s: DesktopScan): (r: Result<DesktopScan, Fault>)
    ensures r.Ok? <==> forall k :: 0 <= k < |ids| ==> Measured(targets, ids[k])
    ensures r.Ok? && |ids| > 0 && r.value.mapHeight != r.value.contentHeight ==>
      r.value.total == Max(r.value.mapHeight, r.value.contentHeight)
    ensures r.Ok? ==> r.value.total in Candidates(ids, targets) + {s.mapHeight, s.contentHeight, s.total}
    ensures r.Ok? ==> r.value.mapHeight in Candidates(ids, targets) + {s.mapHeight}
    ensures r.Ok? ==> r.value.contentHeight in Candidates(ids, targets) + {s.contentHeight}
    ensures r.Err? ==> exists k :: 0 <= k < |ids| && !Measured(targets, ids[k]) && r.error == MissingElement("#" + ids[k])
    decreases |ids|
  {
    if |ids| == 0 then Ok(s)
    else if !Measured(targets, ids[0]) then Err(MissingElement("#" + ids[0]))
    else
      var t := targets[ids[0]];
      var m := if t.isRegion then t.wrapperHeight else s.mapHeight;
      var c := if t.isContent then t.height else s.contentHeight;
      assert forall k :: 0 <= k < |ids| - 1 ==> ids[1..][k] == ids[k + 1];
      assert Candidates(ids[1..], targets) <= Candidates(ids, targets);
      assert m in Candidates(ids, targets) + {s.mapHeight};
      assert c in Candidates(ids, targets) + {s.contentHeight};
      DesktopFold(ids[1..], targets, DesktopScan(m, c, StrictMax(m, c, s.total)))
  }

  /**
   * One more id extends the desktop scan by one step of the `forEach`: the
   * region or content height it carries replaces the last one, and the total
   * becomes the strictly larger of the two, or stays as it was on a tie.
   */
  lemma {:induction false} DesktopFoldSnoc(ids: seq<string>, id: string, targets: map<string, Target>, s: DesktopScan)
    requires DesktopFold(ids, targets, s).Ok? && Measured(targets, id)
    ensures var p := DesktopFold(ids, targets, s).value;
      var t := targets[id];
      var mh := if t.isRegion then t.wrapperHeight else p.mapHeight;
      var ch := if t.isContent then t.height else p.contentHeight;
      DesktopFold(ids + [id], targets, s) == Ok(DesktopScan(mh, ch, StrictMax(mh, ch, p.total)))
    ensures var p := DesktopFold(ids, targets, s).value;
      var t := targets[id];
      var mh := if t.isRegion then t.wrapperHeight else p.mapHeight;
      var ch := if t.isContent then t.height else p.contentHeight;
      mh == ch ==> DesktopFold(ids + [id], targets, s) == Ok(DesktopScan(mh, ch, p.total))
    decreases |ids|
  {
    if |ids| == 0 {
      assert ids + [id] == [id];
      assert [id][1..] == [];
    } else {
      assert (ids + [id])[1..] == ids[1..] + [id];
      var t0 := targets[ids[0]];
      var m0 := if t0.isRegion then t0.wrapperHeight else s.mapHeight;
      var c0 := if t0.isContent then t0.height else s.contentHeight;
      DesktopFoldSnoc(ids[1..], id, targets, DesktopScan(m0, c0, StrictMax(m0, c0, s.total)));
    }
  }

  /**
   * The regions branch of `adjustHeight` with a control: the running sum on
   * mobile, the desktop scan on desktop, started from zero; a controlled id
   * that names no element stops it.
   */
  function ControlledHeight(st: Responsive, ids: seq<string>, targets: map<string, Target>): (r: Result<int, Fault>)
    ensures r.Ok? <==> forall k :: 0 <= k < |ids| ==> Measured(targets, ids[k])
    ensures st == Mobile && r.Ok? ==> MobileSum(ids, targets).Ok? && r.value == MobileSum(ids, targets).value + 240
    ensures st == Desktop && r.Ok? ==>
      var scan := DesktopFold(ids, targets, DesktopScan(0, 0, 0));
      scan.Ok? && r.value == scan.value.total + 160
    ensures st == Mobile && r.Ok? ==> r.value >= 240
    ensures st == Desktop && r.Ok? ==> r.value >= 160
  {
    if st == Mobile then
      match MobileSum(ids, targets)
      case Err(e) => Err(e)
      case Ok(sum) => Ok(sum + RegionsMobileExtra)
    else
      match DesktopFold(ids, targets, DesktopScan(0, 0, 0))
      case Err(e) => Err(e)
      case Ok(scan) =>
        assert scan.total >= 0 by {
          assert forall h :: h in Candidates(ids, targets) ==> h >= 0;
        }
        Ok(scan.total + ControlledDesktopExtra)
  }

  /**
   * `adjustHeight` for a frame already recognised: the block size it assigns,
   * or the fault that stops it. `control` is `None` for a `null` control,
   * otherwise the control's `aria-controls` attribute.
   */
  function FrameHeight(f: Frame, st: Responsive, m: Measures, control: Option<Attr>): (r: Result<int, Fault>)
    ensures f == World && st == Mobile ==> r == Ok(m.worldWrapper + m.worldNav + 40)
    ensures f == World && st == Desktop ==> r == Ok(m.worldWrapper - 8)
    ensures f == List ==> r == Ok(m.list)
    ensures f == Regions && control.None? && st == Mobile ==>
      r == Ok(m.regionWrapper + m.regionContent + m.regionNav + 240)
    ensures f == Regions && control.None? && st == Desktop && m.regionWrapper != m.regionContent ==>
      r == Ok(Max(m.regionWrapper, m.regionContent) + 150)
    ensures f == Regions && control.None? && st == Desktop && m.regionWrapper == m.regionContent ==>
      r == Ok(150)
    ensures f == Regions && control == Some(Absent) ==> r == Err(MissingAttribute("aria-controls"))
    ensures f == Regions && control.Some? && control.value.Present? ==>
      r == ControlledHeight(st, Strings.Split(control.value.value), m.targets)
  {
    match f
    case World =>
      if st == Mobile then Ok(m.worldWrapper + m.worldNav + WorldMobileExtra)
      else Ok(m.worldWrapper - WorldDesktopTrim)
    case List => Ok(m.list)
    case Regions =>
      match control
      case None =>
        if st == Mobile then Ok(m.regionWrapper + m.regionContent + m.regionNav + RegionsMobileExtra)
        else Ok(StrictMax(m.regionWrapper, m.regionContent, 0) + RegionsDesktopExtra)
      case Some(Absent) => Err(MissingAttribute("aria-controls"))
      case Some(Present(s)) => ControlledHeight(st, Strings.Split(s), m.targets)
  }

  /**
   * `adjustHeight(frame, control)`: the block size assigned to the map frame,
   * `None` when the frame name is none of the three, or the fault that stops
   * it. The handlers always pass one of the three names, so they use
   * `FrameHeight` with the frame the name denotes.
   */
  function AdjustHeight(frame: string, st: Responsive, m: Measures, control: Option<Attr>): (r: Result<Option<int>, Fault>)
    ensures ParseFrame(frame).None? ==> r == Ok(None)
    ensures ParseFrame(frame).Some? ==>
      var h := FrameHeight(ParseFrame(frame).value, st, m, control);
      (r.Ok? <==> h.Ok?) && (r.Ok? ==> r.value == Some(h.value)) && (r.Err? ==> r.error == h.error)
    ensures frame == "world" && st == Mobile ==> r == Ok(Some(m.worldWrapper + m.worldNav + 40))
    ensures frame == "world" && st == Desktop ==> r == Ok(Some(m.worldWrapper - 8))
    ensures frame == "list" ==> r == Ok(Some(m.list))
    ensures frame == "regions" && control == Some(Absent) ==> r == Err(MissingAttribute("aria-controls"))
    ensures frame == "regions" && control.Some? && control.value.Present? ==>
      var ids := Strings.Split(control.value.value);
      (r.Ok? <==> forall k :: 0 <= k < |ids| ==> Measured(m.targets, ids[k]))
  {
    match ParseFrame(frame)
    case None => Ok(None)
    case Some(f) =>
      match FrameHeight(f, st, m, control)
      case Err(e) => Err(e)
      case Ok(h) => Ok(Some(h))
  }

  /**
   * On desktop, a control naming one region and one content block gives the
   * larger of the two heights plus 160, even when they are equal, whereas the
   * recomputation without a control gives the larger plus 150 and just 150
   * on a tie.
   */
  lemma ControlledPairIsMax(m: Measures, region: string, content: string)
    requires Measured(m.targets, region) && Measured(m.targets, content)
    requires m.targets[region].isRegion && !m.targets[region].isContent
    requires m.targets[content].isContent && !m.targets[content].isRegion
    requires forall k :: 0 <= k < |region| ==> region[k] != ','
    requires forall k :: 0 <= k < |content| ==> content[k] != ','
    ensures AdjustHeight("regions", Desktop, m, Some(Present(region + Strings.Separator + content)))
      == Ok(Some(Max(m.targets[region].wrapperHeight, m.targets[content].height) + 160))
  {
    var ids := [region, content];
    assert Strings.Join(ids) == region + Strings.Separator + content;
    Strings.SplitJoin(ids);
    var a := m.targets[region].wrapperHeight;
    var b := m.targets[content].height;
    var first := DesktopScan(a, 0, StrictMax(a, 0, 0));
    assert DesktopFold(ids, m.targets, DesktopScan(0, 0, 0)) == DesktopFold([content], m.targets, first);
    assert DesktopFold([content], m.targets, first) == DesktopFold([], m.targets, DesktopScan(a, b, StrictMax(a, b, first.total)));
  }

  /**
   * The tie quirk of the desktop scan: after a region of height 500, a
   * content block of 100 and a second region of 100, the last map and content
   * heights are equal, so the total keeps the 500 picked up earlier.
   */
  lemma DesktopTieKeepsEarlierTotal()
    ensures var targets := map[
        "r1" := Target(true, false, 500, 0, None),
        "c" := Target(false, true, 0, 100, None),
        "r2" := Target(true, false, 100, 0, None)];
      DesktopFold(["r1", "c", "r2"], targets, DesktopScan(0, 0, 0)) == Ok(DesktopScan(100, 100, 500))
  {
    var targets := map[
        "r1" := Target(true, false, 500, 0, None),
        "c" := Target(false, true, 0, 100, None),
        "r2" := Target(true, false, 100, 0, None)];
    var ids := ["r1", "c", "r2"];
    assert ids[1..] == ["c", "r2"] && ids[1..][1..] == ["r2"] && ids[1..][1..][1..] == [];
    assert DesktopFold(ids, targets, DesktopScan(0, 0, 0)) == DesktopFold(["c", "r2"], targets, DesktopScan(500, 0, 500));
    assert DesktopFold(["c", "r2"], targets, DesktopScan(500, 0, 500)) == DesktopFold(["r2"], targets, DesktopScan(500, 100, 500));
    assert DesktopFold(["r2"], targets, DesktopScan(500, 100, 500)) == DesktopFold([], targets, DesktopScan(100, 100, 500));
  }
}

=== FILE: region_block.dfy ===
/**
 * The story-map block's `build()`: the nested region tree handed to the
 * template, built from the top-level terms of the "locations" vocabulary and
 * their children, with positions as percentages of a reference image.
 */
module RegionBlock {
  import opened Base
  import Strings

  /** A numeric taxonomy field as PHP reads it: NULL or a number. */
  datatype FieldValue = Null | Num(n: real)

  /** PHP `empty()` on a field value: NULL and zero are empty. */
  predicate IsEmpty(f: FieldValue) {
    f.Null? || f.n == 0.0
  }

  /** The value a field takes in arithmetic: NULL counts as zero. */
  function Numeric(f: FieldValue): (r: real)
    ensures IsEmpty(f) <==> r == 0.0
  {
    match f
    case Null => 0.0
    case Num(n) => n
  }

  /** The only way `build()` fails: a division by a zero or missing context. */
  datatype BuildError = DivisionByZero

  /** Width, in pixels, of the world map image that top-level positions refer to. */
  const ReferenceWidth: real := 1304.0
  /** Height, in pixels, of the world map image that top-level positions refer to. */
  const ReferenceHeight: real := 850.0

  /**
   * `getPercent(value, context)`: 0 when the value is empty, otherwise
   * `round(value / context * 100, 2)`, where `round` is PHP's two-decimal
   * rounding, passed in and left uninterpreted. Dividing a non-empty value by
   * a zero context raises DivisionByZeroError.
   */
  function GetPercent(value: FieldValue, context: real, round: real -> real): (r: Result<real, BuildError>)
    ensures IsEmpty(value) ==> r == Ok(0.0)
    ensures !IsEmpty(value) ==> (r.Ok? <==> context != 0.0)
    ensures r.Ok? && !IsEmpty(value) ==> r.value == round(Numeric(value) / context * 100.0)
    ensures r.Err? ==> r.error == DivisionByZero
  {
    if IsEmpty(value) then Ok(0.0)
    else if context == 0.0 then Err(DivisionByZero)
    else Ok(round(value.n / context * 100.0))
  }

  /**
   * The empty guard changes no percentage: whenever the context is not zero
   * and rounding keeps 0 at 0, the result is the plain formula. Its only
   * effect is to avoid dividing an empty value by a zero context.
   */
  lemma GuardOnlyAvoidsDivision(value: FieldValue, context: real, round: real -> real)
    requires round(0.0) == 0.0
    ensures context != 0.0 ==> GetPercent(value, context, round) == Ok(round(Numeric(value) / context * 100.0))
    ensures context == 0.0 ==> (GetPercent(value, context, round).Ok? <==> IsEmpty(value))
  {
    if IsEmpty(value) && context != 0.0 {
      assert Numeric(value) / context * 100.0 == 0.0;
    }
  }

  /**
   * A term of the "locations" vocabulary. `parentId` is `parent->target_id`
   * (0 for a top-level term); `cssClass` is the term name after
   * `Html::getClass`; `impact` and `locations` stand for the rendered
   * `field_text_formatted` and `field_locations`.
   */
  datatype Term = Term(
    id: int,
    parentId: int,
    name: string,
    cssClass: string,
    x: FieldValue,
    y: FieldValue,
    aspectX: FieldValue,
    aspectY: FieldValue,
    impact: string,
    locations: string)

  /** One child region as it appears in a parent's `regions` list. */
  datatype ChildEntry = ChildEntry(
    id: int, title: string, machineName: string, x: real, y: real, impact: string, locations: string)

  /** One top-level region in `map_regions`. */
  datatype ParentEntry = ParentEntry(
    id: int, title: string, machineName: string, x: real, y: real,
    aspectX: FieldValue, aspectY: FieldValue, impact: string, locations: string,
    regions: seq<ChildEntry>)

  /** `str_replace('--', '-', Html::getClass(name))`. */
  function MachineName(t: Term): string {
    Strings.ReplaceDoubleDash(t.cssClass)
  }

  /** A child's positions can be computed: each non-empty coordinate has a non-zero context. */
  predicate ChildDivisible(parent: Term, child: Term) {
    (IsEmpty(child.x) || Numeric(parent.aspectX) != 0.0) && (IsEmpty(child.y) || Numeric(parent.aspectY) != 0.0)
  }

  /** Every child in `kids` can be positioned against `parent`. */
  predicate ChildrenDivisible(parent: Term, kids: seq<Term>) {
    forall k :: 0 <= k < |kids| ==> ChildDivisible(parent, kids[k])
  }

  /** The record for one child: its position is relative to the parent's aspect-ratio fields. */
  function ChildEntryOf(parent: Term, child: Term, round: real -> real): (r: Result<ChildEntry, BuildError>)
    ensures r.Ok? <==> ChildDivisible(parent, child)
    ensures r.Ok? ==> (
      && r.value.id == child.id && r.value.title == child.name
      && r.value.machineName == MachineName(child)
      && r.value.impact == child.impact && r.value.locations == child.locations
      && Ok(r.value.x) == GetPercent(child.x, Numeric(parent.aspectX), round)
      && Ok(r.value.y) == GetPercent(child.y, Numeric(parent.aspectY), round))
  {
    var x :- GetPercent(child.x, Numeric(parent.aspectX), round);
    var y :- GetPercent(child.y, Numeric(parent.aspectY), round);
    Ok(ChildEntry(child.id, child.name, MachineName(child), x, y, child.impact, child.locations))
  }

  /** The inner loop of `build()`: one record per loaded child, in load order. */
  function ChildEntries(parent: Term, kids: seq<Term>, round: real -> real): (r: Result<seq<ChildEntry>, BuildError>)
    ensures r.Ok? <==> ChildrenDivisible(parent, kids)
    ensures r.Ok? ==> |r.value| == |kids|
    ensures r.Ok? ==> forall k :: 0 <= k < |kids| ==> Ok(r.value[k]) == ChildEntryOf(parent, kids[k], round)
    decreases |kids|
  {
    if |kids| == 0 then Ok([])
    else
      var first :- ChildEntryOf(parent, kids[0], round);
      var rest :- ChildEntries(parent, kids[1..], round);
      assert forall k :: 0 <= k < |kids| - 1 ==> kids[1..][k] == kids[k + 1];
      Ok([first] + rest)
  }

  /** The record for one top-level term: its position is relative to the 1304 by 850 reference image. */
  function ParentEntryOf(parent: Term, kids: seq<Term>, round: real -> real): (r: Result<ParentEntry, BuildError>)
    ensures r.Ok? <==> ChildrenDivisible(parent, kids)
    ensures r.Ok? ==> (
      && r.value.id == parent.id && r.value.title == parent.name
      && r.value.machineName == MachineName(parent)
      && Ok(r.value.x) == GetPercent(parent.x, ReferenceWidth, round)
      && Ok(r.value.y) == GetPercent(parent.y, ReferenceHeight, round)
      && r.value.aspectX == parent.aspectX && r.value.aspectY == parent.aspectY
      && r.value.impact == parent.impact && r.value.locations == parent.locations
      && Ok(r.value.regions) == ChildEntries(parent, kids, round))
  {
    var children :- ChildEntries(parent, kids, round);
    var x := GetPercent(parent.x, ReferenceWidth, round).value;
    var y := GetPercent(parent.y, ReferenceHeight, round).value;
    Ok(ParentEntry(parent.id, parent.name, MachineName(parent), x, y,
                   parent.aspectX, parent.aspectY, parent.impact, parent.locations, children))
  }

  /** The top-level terms among `terms`, in their original order. */
  function TopLevel(terms: seq<Term>): (r: seq<Term>)
    ensures |r| <= |terms|
    ensures forall k :: 0 <= k < |r| ==> r[k].parentId == 0 && r[k] in terms
    ensures forall k :: 0 <= k < |terms| && terms[k].parentId == 0 ==> terms[k] in r
    ensures (forall k :: 0 <= k < |terms| ==> terms[k].parentId == 0) ==> r == terms
    decreases |terms|
  {
    if |terms| == 0 then []
    else
      assert forall k :: 0 <= k < |terms| - 1 ==> terms[1..][k] == terms[k + 1];
      if terms[0].parentId == 0 then
        assert terms == [terms[0]] + terms[1..];
        [terms[0]] + TopLevel(terms[1..])
      else TopLevel(terms[1..])
  }

  /** The filter of a non-empty list: its head when that is top-level, then the filter of the rest. */
  lemma TopLevelCons(s: seq<Term>)
    requires |s| > 0
    ensures TopLevel(s) == (if s[0].parentId == 0 then [s[0]] else []) + TopLevel(s[1..])
  {
  }

  /** Dropping the head of a concatenation drops it from the left part. */
  lemma DropAppend(a: seq<Term>, b: seq<Term>)
    requires |a| > 0
    ensures (a + b)[0] == a[0] && (a + b)[1..] == a[1..] + b
  {
  }

  /** Concatenation of term lists is associative. */
  lemma AppendAssoc(x: seq<Term>, y: seq<Term>, z: seq<Term>)
    ensures x + (y + z) == (x + y) + z
  {
  }

  /** One step of `TopLevelAppend`: distributing over the tail distributes over the whole list. */
  lemma TopLevelAppendStep(a: seq<Term>, b: seq<Term>)
    requires |a| > 0 && TopLevel(a[1..] + b) == TopLevel(a[1..]) + TopLevel(b)
    ensures TopLevel(a + b) == TopLevel(a) + TopLevel(b)
  {
    DropAppend(a, b);
    var head: seq<Term> := if a[0].parentId == 0 then [a[0]] else [];
    TopLevelCons(a + b);
    TopLevelCons(a);
    AppendAssoc(head, TopLevel(a[1..]), TopLevel(b));
  }

  /**
   * Filtering keeps input order: it distributes over concatenation, and a
   * single term is kept exactly when its parent is 0.
   */
  lemma {:induction false} TopLevelAppend(a: seq<Term>, b: seq<Term>)
    ensures TopLevel(a + b) == TopLevel(a) + TopLevel(b)
    ensures |a| == 1 ==> TopLevel(a) == (if a[0].parentId == 0 then a else [])
    decreases |a|
  {
    if |a| == 0 {
      assert a + b == b;
    } else {
      TopLevelAppend(a[1..], b);
      TopLevelAppendStep(a, b);
      if |a| == 1 {
        TopLevelCons(a);
        assert a[1..] == [] && a == [a[0]];
      }
    }
  }

  /** The terms of `terms` whose children can all be positioned. */
  predicate AllDivisible(terms: seq<Term>, childrenOf: int -> seq<Term>) {
    forall k :: 0 <= k < |terms| ==> ChildrenDivisible(terms[k], childrenOf(terms[k].id))
  }

  /** Splits the divisibility of a list of top-level terms at its head. */
  lemma AllDivisibleCons(t: Term, rest: seq<Term>, childrenOf: int -> seq<Term>)
    ensures AllDivisible([t] + rest, childrenOf) <==>
      ChildrenDivisible(t, childrenOf(t.id)) && AllDivisible(rest, childrenOf)
  {
    var all := [t] + rest;
    assert all[0] == t;
    assert forall k :: 0 <= k < |rest| ==> all[k + 1] == rest[k];
  }

  /** One entry per top-level term, in order, holding the records of the children `childrenOf` loads for it. */
  function ParentEntries(tops: seq<Term>, childrenOf: int -> seq<Term>, round: real -> real): (r: Result<seq<ParentEntry>, BuildError>)
    ensures r.Ok? <==> AllDivisible(tops, childrenOf)
    ensures r.Ok? ==> |r.value| == |tops|
    ensures r.Ok? ==> forall k :: 0 <= k < |tops| ==>
      Ok(r.value[k]) == ParentEntryOf(tops[k], childrenOf(tops[k].id), round)
    decreases |tops|
  {
    if |tops| == 0 then Ok([])
    else
      assert tops == [tops[0]] + tops[1..];
      AllDivisibleCons(tops[0], tops[1..], childrenOf);
      var first :- ParentEntryOf(tops[0], childrenOf(tops[0].id), round);
      var rest :- ParentEntries(tops[1..], childrenOf, round);
      assert forall k :: 0 <= k < |tops| - 1 ==> tops[1..][k] == tops[k + 1];
      Ok([first] + rest)
  }

  /**
   * The outer loop of `build()`: terms whose parent is not 0 are skipped;
   * each top-level term gives one entry, in input order, holding the records
   * of the children `childrenOf` loads for it.
   */
  function MapRegions(terms: seq<Term>, childrenOf: int -> seq<Term>, round: real -> real): (r: Result<seq<ParentEntry>, BuildError>)
    ensures r.Ok? <==> AllDivisible(TopLevel(terms), childrenOf)
    ensures r.Ok? ==> |r.value| == |TopLevel(terms)|
    ensures r.Ok? ==> forall k :: 0 <= k < |r.value| ==>
      Ok(r.value[k]) == ParentEntryOf(TopLevel(terms)[k], childrenOf(TopLevel(terms)[k].id), round)
    ensures (forall k :: 0 <= k < |terms| ==> terms[k].parentId != 0) ==> r == Ok([])
  {
    ParentEntries(TopLevel(terms), childrenOf, round)
  }

  /** The formatted description stored in the block configuration. */
  datatype TextFormat = TextFormat(value: string, format: string)

  /** The block configuration: `story_map_heading` and `story_map_description`; `None` is unset or empty. */
  datatype Config = Config(heading: Option<string>, description: Option<TextFormat>)

  /** PHP `empty()` on the heading: unset, "" and "0" are all empty. */
  predicate HeadingEmpty(h: Option<string>) {
    h.None? || h.value == "" || h.value == "0"
  }

  /** The render array `build()` returns; each key is present exactly when its field is `Some`. */
  datatype BuildOutput = BuildOutput(
    mapDescription: Option<TextFormat>,
    mapHeading: Option<string>,
    mapRegions: Option<seq<ParentEntry>>)

  /** The only keys `build()` ever sets. */
  const OutputKeys: set<string> := {"map_description", "map_heading", "map_regions"}

  /** The keys of the returned array. */
  function Keys(b: BuildOutput): set<string> {
    (if b.mapDescription.Some? then {"map_description"} else {})
    + (if b.mapHeading.Some? then {"map_heading"} else {})
    + (if b.mapRegions.Some? then {"map_regions"} else {})
  }

  /**
   * `build()`: `map_regions` from the terms, then the description and the
   * heading, each key set only when its source is non-empty.
   */
  function Build(config: Config, terms: seq<Term>, childrenOf: int -> seq<Term>, round: real -> real): (r: Result<BuildOutput, BuildError>)
    ensures r.Ok? <==> AllDivisible(TopLevel(terms), childrenOf)
    ensures r.Ok? ==> Keys(r.value) <= OutputKeys
    ensures r.Ok? ==> ("map_description" in Keys(r.value) <==> config.description.Some?)
    ensures r.Ok? ==> ("map_heading" in Keys(r.value) <==> !HeadingEmpty(config.heading))
    ensures r.Ok? ==> ("map_regions" in Keys(r.value) <==> |TopLevel(terms)| > 0)
    ensures r.Ok? ==> r.value.mapDescription == config.description
    ensures r.Ok? && r.value.mapHeading.Some? ==> config.heading == r.value.mapHeading
    ensures r.Ok? && r.value.mapRegions.Some? ==> Ok(r.value.mapRegions.value) == MapRegions(terms, childrenOf, round)
  {
    var regions :- MapRegions(terms, childrenOf, round);
    Ok(BuildOutput(
      config.description,
      if HeadingEmpty(config.heading) then None else config.heading,
      if |regions| == 0 then None else Some(regions)))
  }

  /** A heading of "0" is dropped like an empty one, because PHP's `empty("0")` holds. */
  lemma ZeroHeadingDropped(terms: seq<Term>, childrenOf: int -> seq<Term>, round: real -> real)
    requires AllDivisible(TopLevel(terms), childrenOf)
    ensures Build(Config(Some("0"), None), terms, childrenOf, round).Ok?
    ensures "map_heading" !in Keys(Build(Config(Some("0"), None), terms, childrenOf, round).value)
  {
  }

  /**
   * When every top-level term has non-zero aspect-ratio fields, `build()`
   * cannot fail, and every parent and child record is present.
   */
  lemma {:induction false} NonZeroAspectBuilds(config: Config, terms: seq<Term>, childrenOf: int -> seq<Term>, round: real -> real)
    requires forall k :: 0 <= k < |terms| && terms[k].parentId == 0 ==>
      Numeric(terms[k].aspectX) != 0.0 && Numeric(terms[k].aspectY) != 0.0
    ensures Build(config, terms, childrenOf, round).Ok?
  {
    var top := TopLevel(terms);
    forall k | 0 <= k < |top|
      ensures Numeric(top[k].aspectX) != 0.0 && Numeric(top[k].aspectY) != 0.0
    {
      assert top[k] in terms;
    }
  }
}

=== FILE: story_map.dfy ===
/**
 * The widget's DOM, abstracted to the flags and attributes the controller
 * touches, and the four helpers that change it: `activateFrame`,
 * `resetMarkersContent`, `resetRegions` and `activateContent`. Each helper
 * is a pure transition from one `View` to the next.
 */
module StoryMap {
  import opened Base
  import Strings

  /** The responsive state: desktop when the `(min-width: 1024px)` query matches. */
  datatype Responsive = Mobile | Desktop

  /** The three mutually exclusive frames of the widget. */
  datatype Frame = World | List | Regions

  /** The name under which the controller passes a frame around. */
  function FrameName(f: Frame): string {
    match f
    case World => "world"
    case List => "list"
    case Regions => "regions"
  }

  /** Recognises a frame name; every other string names no frame. */
  function ParseFrame(name: string): (r: Option<Frame>)
    ensures r.Some? ==> FrameName(r.value) == name
    ensures r.None? ==> forall f: Frame :: FrameName(f) != name
  {
    if name == "world" then Some(World)
    else if name == "list" then Some(List)
    else if name == "regions" then Some(Regions)
    else None
  }

  /** A DOM attribute: `getAttribute` yields `null` when it is absent. */
  datatype Attr = Absent | Present(value: string)

  /** An attribute as it reads inside a template string: `null` prints as "null". */
  function AttrText(a: Attr): (r: string)
    ensures a.Present? ==> r == a.value
    ensures a.Absent? ==> r == "null"
  {
    match a
    case Absent => "null"
    case Present(s) => s
  }

  /** JavaScript truthiness of `getAttribute`: absent and empty are both false. */
  predicate Truthy(a: Attr) {
    a.Present? && a.value != ""
  }

  /** The string form of a boolean `aria-expanded`. */
  function Flag(b: bool): string {
    if b then "true" else "false"
  }

  /** The map-view and list-view triggers: their `is-active` class and `aria-expanded`. */
  datatype Trigger = Trigger(active: bool, ariaExpanded: Attr)

  /**
   * A region marker (`.o-story-map__region-trigger`). `listing` and `mobile`
   * record its `--listing` and `--mobile` modifier classes; `controls`,
   * `nextFocus` and `text` are its `aria-controls`, `data-next-focus` and text
   * content, which the controller reads but never writes.
   */
  datatype Marker = Marker(
    active: bool,
    listing: bool,
    mobile: bool,
    ariaExpanded: Attr,
    tabindex: Attr,
    ariaHidden: Attr,
    controls: Attr,
    nextFocus: Attr,
    text: string)

  /** A back trigger: read-only attributes `data-prev-region`, `aria-controls`, `data-next-focus`, `data-announce`. */
  datatype BackTrigger = BackTrigger(prevRegion: Attr, controls: Attr, nextFocus: Attr, announce: Attr)

  /**
   * The state of one widget instance. `regions` and `contents` are the ids of
   * the region and region-content elements, `others` the ids of any other
   * element a selector `#id` can reach; `active` holds the ids among them that
   * carry `is-active`.
   */
  datatype View = View(
    mapTrigger: Trigger,
    listTrigger: Trigger,
    mapWorld: bool,
    mapList: bool,
    mapRegions: bool,
    markers: seq<Marker>,
    regions: set<string>,
    contents: set<string>,
    others: set<string>,
    active: set<string>,
    state: Responsive)

  /** Why a handler cannot complete: a selector that matches nothing, or an attribute that is `null`. */
  datatype Fault = MissingElement(selector: string) | MissingAttribute(name: string)

  /** The frame flags show exactly frame `f`. */
  predicate Shows(v: View, f: Frame) {
    v.mapWorld == (f == World) && v.mapList == (f == List) && v.mapRegions == (f == Regions)
  }

  /** Exactly one of the three frames is active. */
  predicate ExactlyOneFrame(v: View) {
    Shows(v, World) || Shows(v, List) || Shows(v, Regions)
  }

  /** Each view trigger is active, and expanded, exactly when its own frame is. */
  predicate TriggersAgree(v: View) {
    && v.mapTrigger == Trigger(v.mapWorld, Present(Flag(v.mapWorld)))
    && v.listTrigger == Trigger(v.mapList, Present(Flag(v.mapList)))
  }

  /** The frame invariant the controller maintains. */
  predicate FrameInvariant(v: View) {
    ExactlyOneFrame(v) && TriggersAgree(v)
  }

  /** `a` and `b` differ at most in the frame flags and the two view triggers. */
  predicate SameContent(a: View, b: View) {
    a == b.(mapTrigger := a.mapTrigger, listTrigger := a.listTrigger,
            mapWorld := a.mapWorld, mapList := a.mapList, mapRegions := a.mapRegions)
  }

  /** `a` and `b` differ at most in the set of active ids. */
  predicate SameExceptActive(a: View, b: View) {
    a == b.(active := a.active)
  }

  /** `n` is the same marker element as `m`: its classes and read-only attributes agree. */
  predicate SameElement(m: Marker, n: Marker) {
    m.listing == n.listing && m.mobile == n.mobile && m.controls == n.controls
    && m.nextFocus == n.nextFocus && m.text == n.text
  }

  /**
   * `activateFrame(name)`: shows the named frame and hides the other two,
   * setting the two view triggers to match; any other name changes nothing.
   */
  function ActivateFrame(v: View, name: string): (r: View)
    ensures ParseFrame(name).None? ==> r == v
    ensures ParseFrame(name).Some? ==> Shows(r, ParseFrame(name).value) && FrameInvariant(r)
    ensures name == "world" ==>
      r.mapTrigger == Trigger(true, Present("true")) && r.listTrigger == Trigger(false, Present("false"))
    ensures name == "list" ==>
      r.mapTrigger == Trigger(false, Present("false")) && r.listTrigger == Trigger(true, Present("true"))
    ensures name == "regions" ==>
      r.mapTrigger == Trigger(false, Present("false")) && r.listTrigger == Trigger(false, Present("false"))
    ensures SameContent(r, v)
  {
    match ParseFrame(name)
    case None => v
    case Some(f) =>
      v.(mapWorld := f == World, mapList := f == List, mapRegions := f == Regions,
         mapTrigger := Trigger(f == World, Present(Flag(f == World))),
         listTrigger := Trigger(f == List, Present(Flag(f == List))))
  }

  /** One marker as `resetMarkersContent` leaves it in responsive state `st`. */
  function ResetMarker(m: Marker, st: Responsive): (n: Marker)
    ensures !n.active && SameElement(m, n)
    ensures m.listing ==> n.ariaExpanded == m.ariaExpanded
    ensures !m.listing ==> n.ariaExpanded == Present("false")
    ensures m.mobile ==> n.tabindex == m.tabindex && n.ariaHidden == m.ariaHidden
    ensures !m.mobile && st == Mobile ==> n.tabindex == Present("-1") && n.ariaHidden == Present("true")
    ensures !m.mobile && st == Desktop ==> n.tabindex == Absent && n.ariaHidden == Absent
  {
    var hidden := !m.mobile && st == Mobile;
    m.(active := false,
       ariaExpanded := (if m.listing then m.ariaExpanded else Present(Flag(false))),
       tabindex := (if m.mobile then m.tabindex else if hidden then Present("-1") else Absent),
       ariaHidden := (if m.mobile then m.ariaHidden else if hidden then Present(Flag(true)) else Absent))
  }

  /**
   * `resetMarkersContent()`: every marker and every region-content block loses
   * `is-active`; non-listing markers are collapsed; non-mobile markers are
   * hidden from keyboard and assistive technology on mobile and exposed again
   * on desktop.
   */
  function ResetMarkersContent(v: View): (r: View)
    ensures |r.markers| == |v.markers|
    ensures forall k :: 0 <= k < |r.markers| ==> !r.markers[k].active && SameElement(v.markers[k], r.markers[k])
    ensures forall k :: 0 <= k < |r.markers| && !v.markers[k].listing ==> r.markers[k].ariaExpanded == Present("false")
    ensures forall k :: 0 <= k < |r.markers| && v.markers[k].listing ==> r.markers[k].ariaExpanded == v.markers[k].ariaExpanded
    ensures forall k :: 0 <= k < |r.markers| && v.markers[k].mobile ==>
      r.markers[k].tabindex == v.markers[k].tabindex && r.markers[k].ariaHidden == v.markers[k].ariaHidden
    ensures v.state == Mobile ==> forall k :: 0 <= k < |r.markers| && !v.markers[k].mobile ==>
      r.markers[k].tabindex == Present("-1") && r.markers[k].ariaHidden == Present("true")
    ensures v.state == Desktop ==> forall k :: 0 <= k < |r.markers| && !v.markers[k].mobile ==>
      r.markers[k].tabindex == Absent && r.markers[k].ariaHidden == Absent
    ensures r.active == v.active - v.contents
    ensures r == v.(markers := r.markers, active := r.active)
  {
    var ms := v.markers;
    v.(markers := seq(|ms|, k requires 0 <= k < |ms| => ResetMarker(ms[k], v.state)),
       active := v.active - v.contents)
  }

  /** `resetRegions()`: every region loses `is-active`, and nothing else changes. */
  function ResetRegions(v: View): (r: View)
    ensures r.active == v.active - v.regions
    ensures SameExceptActive(r, v)
  {
    v.(active := v.active - v.regions)
  }

  /** `wrapper.querySelector('#' + id)` finds an element. */
  predicate Resolves(v: View, id: string) {
    id != "" && id in v.regions + v.contents + v.others
  }

  /** A marker after `activateContent` has marked it: active, and expanded unless it is a listing marker. */
  function Expanded(m: Marker): (n: Marker)
    ensures n.active && SameElement(m, n)
    ensures n.tabindex == m.tabindex && n.ariaHidden == m.ariaHidden
    ensures n.ariaExpanded == (if m.listing then m.ariaExpanded else Present("true"))
  {
    m.(active := true, ariaExpanded := (if m.listing then m.ariaExpanded else Present(Flag(true))))
  }

  /** The marker's state does not change under a second `Expanded`. */
  lemma ExpandedIdempotent(m: Marker)
    ensures Expanded(Expanded(m)) == Expanded(m)
  {
  }

  /**
   * The `forEach` over the controlled ids in `activateContent`: each id's
   * element becomes active and so does marker `i`. The first id that resolves
   * to nothing stops the handler.
   */
  function ActivateAll(v: View, i: nat, ids: seq<string>): (r: Result<View, Fault>)
    requires i < |v.markers|
    ensures r.Ok? <==> forall k :: 0 <= k < |ids| ==> Resolves(v, ids[k])
    ensures r.Err? ==> exists k :: (0 <= k < |ids| && !Resolves(v, ids[k])
      && (forall j :: 0 <= j < k ==> Resolves(v, ids[j]))
      && r.error == MissingElement("#" + ids[k]))
    ensures r.Ok? ==> r.value.active == v.active + (set id | id in ids)
    ensures r.Ok? ==> |r.value.markers| == |v.markers|
    ensures r.Ok? ==> forall j :: 0 <= j < |v.markers| && j != i ==> r.value.markers[j] == v.markers[j]
    ensures r.Ok? && |ids| > 0 ==> r.value.markers[i] == Expanded(v.markers[i])
    ensures r.Ok? && |ids| == 0 ==> r.value == v
    ensures r.Ok? ==> r.value == v.(markers := r.value.markers, active := r.value.active)
    decreases |ids|
  {
    if |ids| == 0 then Ok(v)
    else if !Resolves(v, ids[0]) then Err(MissingElement("#" + ids[0]))
    else
      var next := v.(active := v.active + {ids[0]}, markers := v.markers[i := Expanded(v.markers[i])]);
      ExpandedIdempotent(v.markers[i]);
      assert forall k :: 0 <= k < |ids| - 1 ==> ids[1..][k] == ids[k + 1];
      assert (set id | id in ids) == {ids[0]} + (set id | id in ids[1..]);
      ActivateAll(next, i, ids[1..])
  }

  /**
   * `activateContent(target)` for marker `i`: every id in its `aria-controls`,
   * split on ", ", becomes active, and so does the marker, which is expanded
   * unless it is a listing marker. A missing `aria-controls` or an id that
   * matches nothing is a fault.
   */
  function ActivateContent(v: View, i: nat): (r: Result<View, Fault>)
    requires i < |v.markers|
    ensures v.markers[i].controls.Absent? ==> r == Err(MissingAttribute("aria-controls"))
    ensures r.Ok? ==> v.markers[i].controls.Present?
    ensures r.Ok? ==> r.value.active == v.active + (set id | id in Strings.Split(v.markers[i].controls.value))
    ensures v.markers[i].controls.Present? ==>
      (r.Ok? <==> forall id :: id in Strings.Split(v.markers[i].controls.value) ==> Resolves(v, id))
    ensures r.Ok? ==> |r.value.markers| == |v.markers| && r.value.markers[i] == Expanded(v.markers[i])
    ensures r.Ok? ==> forall j :: 0 <= j < |v.markers| && j != i ==> r.value.markers[j] == v.markers[j]
    ensures r.Ok? ==> r.value == v.(markers := r.value.markers, active := r.value.active)
  {
    match v.markers[i].controls
    case Absent => Err(MissingAttribute("aria-controls"))
    case Present(s) => ActivateAll(v, i, Strings.Split(s))
  }

  /** The content id a back trigger returns to: `content-` followed by its `data-prev-region`. */
  function PrevContentId(b: BackTrigger): string {
    "content-" + AttrText(b.prevRegion)
  }

  /**
   * `activateContent(target, true)`: the content block named by the back
   * trigger's `data-prev-region` becomes active; that is the only change.
   */
  function ActivateParentContent(v: View, b: BackTrigger): (r: Result<View, Fault>)
    ensures r.Ok? <==> Resolves(v, PrevContentId(b))
    ensures r.Ok? ==> r.value.active == v.active + {PrevContentId(b)} && SameExceptActive(r.value, v)
    ensures r.Err? ==> r.error == MissingElement("#" + PrevContentId(b))
  {
    var id := PrevContentId(b);
    if Resolves(v, id) then Ok(v.(active := v.active + {id})) else Err(MissingElement("#" + id))
  }

  /**
   * The element `setFocus` scrolls to and later focuses: the id in
   * `data-next-focus`; if nothing matches, `scrollIntoView` faults.
   */
  function FocusTarget(v: View, nextFocus: Attr): (r: Result<string, Fault>)
    ensures r.Ok? <==> Resolves(v, AttrText(nextFocus))
    ensures r.Ok? ==> r.value == AttrText(nextFocus) && r.value in v.regions + v.contents + v.others
  {
    var id := AttrText(nextFocus);
    if Resolves(v, id) then Ok(id) else Err(MissingElement("#" + id))
  }

  /** Activating a frame twice is the same as once, and the later call wins. */
  lemma {:induction false} ActivateFrameLastWins(v: View, a: string, b: string)
    requires ParseFrame(b).Some?
    ensures ActivateFrame(ActivateFrame(v, a), b) == ActivateFrame(v, b)
  {
  }

  /** Resetting markers and content twice is the same as once. */
  lemma ResetMarkersContentIdempotent(v: View)
    ensures ResetMarkersContent(ResetMarkersContent(v)) == ResetMarkersContent(v)
  {
    var once := ResetMarkersContent(v);
    var twice := ResetMarkersContent(once);
    assert twice.markers == once.markers;
  }

  /** The two resets touch disjoint parts of the view, so their order does not matter. */
  lemma ResetsCommute(v: View)
    ensures ResetRegions(ResetMarkersContent(v)) == ResetMarkersContent(ResetRegions(v))
  {
  }

  /** The resets and content activation never touch the frame flags or view triggers. */
  lemma HelpersKeepFrames(v: View, i: nat, b: BackTrigger)
    requires i < |v.markers|
    ensures FrameInvariant(v) ==> FrameInvariant(ResetMarkersContent(v)) && FrameInvariant(ResetRegions(v))
    ensures FrameInvariant(v) && ActivateContent(v, i).Ok? ==> FrameInvariant(ActivateContent(v, i).value)
    ensures FrameInvariant(v) && ActivateParentContent(v, b).Ok? ==> FrameInvariant(ActivateParentContent(v, b).value)
  {
  }
}

=== FILE: strings.dfy ===
/**
 * The two string operations the story map relies on:
 * - JavaScript's `String.prototype.split(', ')`, used to read the list of
 *   ids in a marker's `aria-controls` attribute, with its inverse `Join`;
 * - PHP's `str_replace('--', '-', s)`, used to derive a region's machine name.
 */
module Strings {

  /** The separator between ids in an `aria-controls` attribute. */
  const Separator: string := ", "

  /** True when a separator starts at index `i` of `s`. */
  predicate SeparatorAt(s: string, i: int) {
    0 <= i && i + 1 < |s| && s[i] == ',' && s[i + 1] == ' '
  }

  /**
   * Splits `s` on every non-overlapping ", ", scanning left to right;
   * `cur` is the piece read so far.
   */
  function SplitFrom(s: string, cur: string): (r: seq<string>)
    ensures |r| >= 1
    ensures |r[0]| >= |cur| && r[0][..|cur|] == cur
    decreases |s|
  {
    if |s| == 0 then [cur]
    else if SeparatorAt(s, 0) then [cur] + SplitFrom(s[2..], "")
    else SplitFrom(s[1..], cur + [s[0]])
  }

  /**
   * `s.split(', ')`: never empty; the empty string yields one empty piece,
   * as in JavaScript.
   */
  function Split(s: string): (r: seq<string>)
    ensures |r| >= 1
    ensures s == "" ==> r == [""]
  {
    SplitFrom(s, "")
  }

  /** `parts.join(', ')`. */
  function Join(parts: seq<string>): (r: string)
    requires |parts| >= 1
    ensures |parts| == 1 ==> r == parts[0]
    ensures |r| >= |parts[0]| && r[..|parts[0]|] == parts[0]
    decreases |parts|
  {
    if |parts| == 1 then parts[0] else parts[0] + Separator + Join(parts[1..])
  }

  /** Joining the pieces of `SplitFrom(s, cur)` gives back `cur + s`. */
  lemma {:induction false} JoinSplitFrom(s: string, cur: string)
    ensures Join(SplitFrom(s, cur)) == cur + s
    decreases |s|
  {
    if |s| == 0 {
    } else if SeparatorAt(s, 0) {
      JoinSplitFrom(s[2..], "");
      assert s == Separator + s[2..];
    } else {
      JoinSplitFrom(s[1..], cur + [s[0]]);
      assert s == [s[0]] + s[1..];
    }
  }

  /** Splitting and re-joining any attribute value restores it exactly. */
  lemma JoinSplit(s: string)
    ensures Join(Split(s)) == s
  {
    JoinSplitFrom(s, "");
  }

  /** Text without commas is read into the current piece unchanged. */
  lemma {:induction false} SplitFromPlain(a: string, t: string, cur: string)
    requires forall k :: 0 <= k < |a| ==> a[k] != ','
    ensures SplitFrom(a + t, cur) == SplitFrom(t, cur + a)
    decreases |a|
  {
    if |a| == 0 {
      assert a + t == t;
      assert cur + a == cur;
    } else {
      assert (a + t)[0] == a[0];
      assert (a + t)[1..] == a[1..] + t;
      SplitFromPlain(a[1..], t, cur + [a[0]]);
      assert cur + [a[0]] + a[1..] == cur + a;
    }
  }

  /** Ids that contain no comma survive a join followed by a split. */
  lemma {:induction false} SplitJoin(parts: seq<string>)
    requires |parts| >= 1
    requires forall j, k :: 0 <= j < |parts| && 0 <= k < |parts[j]| ==> parts[j][k] != ','
    ensures Split(Join(parts)) == parts
    decreases |parts|
  {
    if |parts| == 1 {
      SplitFromPlain(parts[0], "", "");
      assert parts[0] + "" == parts[0];
    } else {
      var rest := Join(parts[1..]);
      assert Join(parts) == parts[0] + (Separator + rest);
      SplitFromPlain(parts[0], Separator + rest, "");
      assert "" + parts[0] == parts[0];
      assert (Separator + rest)[2..] == rest;
      SplitJoin(parts[1..]);
      assert [parts[0]] + parts[1..] == parts;
    }
  }

  /** True when `s` contains "--". */
  predicate HasDoubleDash(s: string) {
    exists i :: 0 <= i < |s| - 1 && s[i] == '-' && s[i + 1] == '-'
  }

  /**
   * `str_replace('--', '-', s)`: one left-to-right pass replacing each
   * non-overlapping "--" by "-".
   */
  function ReplaceDoubleDash(s: string): (r: string)
    ensures |r| <= |s|
    ensures |s| > 0 ==> |r| > 0
    decreases |s|
  {
    if |s| == 0 then ""
    else if |s| >= 2 && s[0] == '-' && s[1] == '-' then "-" + ReplaceDoubleDash(s[2..])
    else [s[0]] + ReplaceDoubleDash(s[1..])
  }

  /** A name without "--" is left as it is. */
  lemma {:induction false} ReplaceWithoutDoubleDash(s: string)
    requires !HasDoubleDash(s)
    ensures ReplaceDoubleDash(s) == s
    decreases |s|
  {
    if |s| > 0 {
      if |s| >= 2 {
        assert !(s[0] == '-' && s[1] == '-');
      }
      forall i | 0 <= i < |s[1..]| - 1
        ensures !(s[1..][i] == '-' && s[1..][i + 1] == '-')
      {
        assert s[1..][i] == s[i + 1] && s[1..][i + 1] == s[i + 2];
      }
      ReplaceWithoutDoubleDash(s[1..]);
      assert s == [s[0]] + s[1..];
    }
  }

  /** A name with "--" gets strictly shorter. */
  lemma {:induction false} ReplaceShortens(s: string)
    requires HasDoubleDash(s)
    ensures |ReplaceDoubleDash(s)| < |s|
    decreases |s|
  {
    var i :| 0 <= i < |s| - 1 && s[i] == '-' && s[i + 1] == '-';
    if !(s[0] == '-' && s[1] == '-') {
      assert i >= 1;
      assert s[1..][i - 1] == '-' && s[1..][i] == '-';
      ReplaceShortens(s[1..]);
    }
  }

  /** The replacement changes a name exactly when it contains "--". */
  lemma ReplaceFixedIff(s: string)
    ensures ReplaceDoubleDash(s) == s <==> !HasDoubleDash(s)
  {
    if HasDoubleDash(s) {
      ReplaceShortens(s);
    } else {
      ReplaceWithoutDoubleDash(s);
    }
  }

  /** The characters of `s` other than '-', in order. */
  function NonDash(s: string): (r: string)
    ensures |r| <= |s|
    ensures forall k :: 0 <= k < |r| ==> r[k] != '-'
    decreases |s|
  {
    if |s| == 0 then "" else if s[0] == '-' then NonDash(s[1..]) else [s[0]] + NonDash(s[1..])
  }

  /** Only dashes are ever removed: every other character keeps its place in order. */
  lemma {:induction false} ReplaceKeepsNonDash(s: string)
    ensures NonDash(ReplaceDoubleDash(s)) == NonDash(s)
    decreases |s|
  {
    if |s| == 0 {
    } else if |s| >= 2 && s[0] == '-' && s[1] == '-' {
      ReplaceKeepsNonDash(s[2..]);
      var t := ReplaceDoubleDash(s[2..]);
      assert ("-" + t)[1..] == t;
      assert NonDash(s) == NonDash(s[1..]);
      assert s[1..][1..] == s[2..];
    } else {
      ReplaceKeepsNonDash(s[1..]);
      var t := ReplaceDoubleDash(s[1..]);
      assert ([s[0]] + t)[1..] == t;
    }
  }

  /**
   * The replacement is a single pass, not a fixed point: a run of three
   * dashes still contains "--" afterwards.
   */
  lemma ReplaceNotIdempotent()
    ensures ReplaceDoubleDash("---") == "--"
    ensures HasDoubleDash(ReplaceDoubleDash("---"))
    ensures ReplaceDoubleDash(ReplaceDoubleDash("---")) != ReplaceDoubleDash("---")
  {
    assert "---"[2..] == "-";
    assert ReplaceDoubleDash("-") == "-";
    assert ReplaceDoubleDash("---") == "--";
    assert "--"[0] == '-' && "--"[1] == '-';
    assert "--"[2..] == "";
    assert ReplaceDoubleDash("--") == "-";
  }
}
